=== FILE: README.md ===
# travel-graph-generator: ingestion, store, table and chart logic in Dafny

This project models the data path of travel-graph-generator, a web app that
turns CSV files or hand-typed rows into datasets and then charts two of
their columns against each other. Four pieces are modelled:

- **`src/lib/db.ts`** (module `Db`):
  - the per-value type guesser `inferColumnType`;
  - the CSV ingester `parseCSV`. It splits the text on newlines and takes the first line as the header. Each later line that is not blank and has one field per header becomes a row with id `row-<line>`, unless a header is named `id`, in which case that field's value replaces the id. Numeric fields become numbers. Each column is named by its header, gets a title-cased label, and is typed from the first kept row;
  - the in-memory store: its `datasets` array and `currentId` counter, `addDataset`, `getDatasets`, `getDatasetById`, `getColumns` and `clearData`;
  - the projector `getDataForColumns`.
- **`src/components/ManualDataInput.tsx`** (module `ManualInput`):
  - the manual row builder `parseManualData`, which converts each field by the type declared for its column. The form's lists of names and types can differ in length: a column with no type keeps its fields as text and gets an `undefined` type, and extra types are ignored;
  - the checks `onSubmit` makes before saving;
  - the column editor. It keeps three parallel lists: the `columns` state and the form's `columnNames` and `columnTypes`.
- **`src/components/DataTable.tsx`** (module `DataTable`):
  - the case-insensitive search over every value of a row;
  - the ten-rows-per-page slicing and the pager's display rules;
  - the `searchQuery`/`currentPage` state and the handlers that update it.
- **`src/components/Graph.tsx`** (module `Graph`):
  - the numeric-column filter and the auto-selection of the first two numeric columns as axes;
  - the guard on the generate action;
  - the ten-point pie window and its ten-colour palette;
  - the axis labels and the options of the axis pickers.

Shared pieces:
- Module `Text` models the JavaScript string operations the code uses: `trim`, `split`, `toLowerCase`, `includes`, and the label rule `replace(/_/g,' ').replace(/\b\w/g, upper)`.
- Module `Collections` models keeping the present entries of a list in order (the push-inside-a-loop-with-`continue` pattern and `filter`), duplicate detection through a set, and `slice`.
- Module `Types` holds the shapes of `src/types/index.ts`. A row is a map from key to `Value` (`Str`, `Num`, `Bool` or `Missing` for `undefined`), and its `id` key is written first. A column type is one of the four the code declares, or `UnsetType` for an `undefined` type.

JavaScript's own parsing, `Number(s)`/`isNaN`, `new Date(s)` and `String(n)`, is not modelled. A `Host` value supplies these four functions, and every property below holds for every host.

The ingesters are methods with the source's loops, proved equal to the specification functions `CsvSpec` and `ManualSpec`. The properties the code promises are proved about those functions. The store, the column editor, the table view and the chart view are classes whose methods update their fields as the handlers do, with one exception: after a save, the column editor resets its `columns` list together with the form's arrays, where the source resets only the form's arrays (see "## Findings").

Three behaviours of the code are worth stating:
- **Text with no newline.** The error thrown at `src/lib/db.ts:33` says a CSV file needs headers and at least one row of data, but the `catch` at `src/lib/db.ts:77-81` turns it into empty data and empty columns (`Db.CsvWithoutNewline`).
- **Header followed by a newline.** `"onlyheader\n"` splits into two lines, so nothing is thrown: the result is one string column per header and no rows (`Db.CsvHeaderOnly`).
- **Columns with an empty name.** `parseManualData` (`src/components/ManualDataInput.tsx:143-147`) keeps every declared name; it is the form schema at `src/components/ManualDataInput.tsx:33` that refuses an empty column name before `onSubmit` runs.

## Model

| member | source | states |
|---|---|---|
| Text.TrimStart | src/lib/db.ts:42 | the leading-whitespace cut leaves a suffix of the input that does not start with whitespace, and everything cut is whitespace |
| Text.TrimEnd | src/lib/db.ts:42 | the trailing-whitespace cut leaves a prefix of the input that does not end with whitespace, and everything cut is whitespace |
| Text.Trim | src/lib/db.ts:42 | the trimmed string is no longer than the input and neither starts nor ends with whitespace |
| Text.TrimIsInfix | src/lib/db.ts:42 | `trim` removes exactly the leading and trailing whitespace: the result is the input between them |
| Text.TrimEmptyIff | src/lib/db.ts:42-43 | a line trims to the empty string, and so is skipped as blank, exactly when it is whitespace only |
| Text.TrimIdempotent | src/lib/db.ts:42 | trimming an already trimmed string changes nothing |
| Text.TrimAll | src/lib/db.ts:36 | `map(h => h.trim())`: one trimmed entry per piece, at the same position |
| Text.Split | src/lib/db.ts:32 | `split(sep)` yields one more piece than there are separators, and no piece contains the separator |
| Text.JoinSplit | src/lib/db.ts:32 | joining the pieces of a split with the separator gives back the original text |
| Text.SplitJoin | src/lib/db.ts:32 | splitting the join of separator-free pieces gives back the same pieces |
| Text.SplitSingleIff | src/lib/db.ts:32-33 | a split yields fewer than two pieces exactly when the separator does not occur |
| Text.ToLower | src/components/DataTable.tsx:21 | `toLowerCase` keeps the length, turns each ASCII capital into its small letter (code point plus 32), and changes no other character |
| Text.Contains | src/components/DataTable.tsx:21 | `includes` holds for the empty query, and only for a query no longer than the text |
| Text.ToLowerIdempotent | src/components/DataTable.tsx:21 | lowercasing a lowercased string changes nothing |
| Text.ContainsAt | src/components/DataTable.tsx:21 | `includes` holds whenever the query occurs at some position |
| Text.ContainsHasPosition | src/components/DataTable.tsx:21 | `includes` holds only when the query occurs at some position, which the lemma returns |
| Text.ToLabel | src/lib/db.ts:71 | the label has the length of the name |
| Text.LabelAt | src/lib/db.ts:71 | each label character is a space for `_`, an upper-cased letter or digit where a word starts, and the name's character otherwise |
| Text.LabelHasNoUnderscore | src/lib/db.ts:71 | a label never contains `_` |
| Text.CapitalizeWordsAt | src/lib/db.ts:71 | the `\b\w` replacement upper-cases a character exactly when it is a word character that starts a word |
| Text.LabelIdempotent | src/lib/db.ts:71 | deriving a label from a label changes nothing |
| Text.NatToString | src/lib/db.ts:51 | the decimal text of a counter is a non-empty string of digits |
| Text.ParseNatToString | src/lib/db.ts:51 | reading the decimal text back gives the counter |
| Text.NatToStringInjective | src/lib/db.ts:51 | different counters render as different texts |
| Text.PrefixedCounterInjective | src/lib/db.ts:86 | `prefix-<a>` and `prefix-<b>` are equal only when a = b |
| Types.Lookup | src/lib/db.ts:121 | `row[key]` is the stored value when the key is present, and `undefined` when it is absent |
| Types.RowIdInjective | src/lib/db.ts:51 | different line numbers give different row ids |
| Types.RowId | src/lib/db.ts:51 | the id is `row-` followed by the decimal text of the line number, from which the line number reads back |
| Types.IdRowContent | src/lib/db.ts:51 | the starting row holds the key `id` and nothing else, with the row id as its value |
| Types.RowIdsDistinct | src/lib/db.ts:51 | rows whose ids are `row-<i>` for strictly increasing line numbers i carry pairwise distinct ids |
| Types.AssignAt | src/lib/db.ts:52-60 | after the field-by-field assignment, a key assigned last at position j holds the j-th value (later duplicates win) |
| Types.AssignKeys | src/lib/db.ts:51-60 | the keys of a built row are the starting `id` key plus every assigned key |
| Types.Assign | src/lib/db.ts:51-60 | the built row keeps the starting keys and holds every assigned key |
| Types.AssignKeeps | src/lib/db.ts:51 | a key that is never assigned keeps its starting value, so `id` survives unless a header is named `id` |
| Collections.KeptIndices | src/lib/db.ts:39-63 | the positions whose line yields a row, in increasing order, with none missing |
| Collections.Collect | src/lib/db.ts:39-63 | the pushed values, in order: value k is the one at the k-th kept position |
| Collections.Filter | src/components/Graph.tsx:37 | `filter` returns no more entries than it is given, each passing the test |
| Collections.Splice | src/components/ManualDataInput.tsx:69-79 | `splice(i, 1)` removes entry i and moves the later ones up, or leaves the list as it is when i is past the end |
| Collections.CollectMembers | src/lib/db.ts:39-63 | a value is pushed exactly when some position yields it |
| Collections.FilterSpec | src/components/Graph.tsx:37 | `filter` keeps exactly the passing entries, in their original order |
| Collections.FilterMembers | src/components/DataTable.tsx:19-23 | an entry survives `filter` exactly when it is an entry that passes |
| Collections.ToSetSize | src/components/ManualDataInput.tsx:164-165 | the set of the names is no larger than the list, and as large when the names are distinct |
| Collections.DistinctIffSetSize | src/components/ManualDataInput.tsx:164-165 | `new Set(names).size === names.length` holds exactly when no name repeats |
| Collections.Slice | src/components/DataTable.tsx:27 | `slice` clamps both bounds to the length and returns the entries between them |
| Db.InferColumnType | src/lib/db.ts:10-27 | missing or empty values are string; the type is number exactly for a number or a non-empty numeric string that is not a date; boolean exactly for a boolean; date exactly for a valid-date string longer than 5 characters; string in every other case (never an unset type) |
| Db.CsvField | src/lib/db.ts:53-59 | a trimmed token becomes a number exactly when it is non-empty and numeric, and otherwise stays the token |
| Db.CsvFields | src/lib/db.ts:52-60 | one converted field per token |
| Db.CsvLine | src/lib/db.ts:42-62 | a data line yields a row exactly when it is not blank after trimming and has one field per header |
| Db.CsvLineResults | src/lib/db.ts:41-63 | one result per line of the text |
| Db.CsvColumns | src/lib/db.ts:66-74 | one column per header |
| Db.HeadersOf | src/lib/db.ts:36 | one header per comma of the first line plus one: header j is the j-th comma-separated piece, trimmed, so trimming again changes nothing |
| Db.CsvKeeps | src/lib/db.ts:42-49 | a line is kept exactly when it is not blank after trimming and has one comma fewer than there are headers |
| Db.FirstValue | src/lib/db.ts:67 | `parsedData[0]?.[header]`: the first row's value under the key, `undefined` when there is no row or no such key |
| Db.CsvSpec | src/lib/db.ts:30-82 | text without a newline gives no data and no columns; otherwise there is one column per comma of the header line plus one |
| Db.BuildCsvRow | src/lib/db.ts:51-60 | the loop over the headers builds the row the specification function describes: the `id` first, then every header's converted field |
| Db.ParseCsvLines | src/lib/db.ts:39-63 | the loop over the data lines returns exactly the rows of the kept lines, in order |
| Db.ParseCsv | src/lib/db.ts:30-82 | the result equals `CsvSpec`; text without a newline yields no data and no columns |
| Db.CsvWithoutNewline | src/lib/db.ts:32-33 | text with no newline gives empty data and empty columns instead of an error |
| Db.CsvSpecUnfold | src/lib/db.ts:32-36 | text with a newline has at least two lines, and the result is built from the first line's headers and the other lines |
| Db.CsvHeaderOnly | src/lib/db.ts:32-74 | a header line followed by one newline gives no rows and one string column per header, named and labelled from the header |
| Db.CsvKeptLines | src/lib/db.ts:41-63 | kept rows come from data lines (never the header) that are not blank and have the right field count, in increasing line order, and every such line is kept |
| Db.CsvKeptRow | src/lib/db.ts:41-62 | row k is the row built from its kept line i with id `row-<i>` |
| Db.CsvRowContent | src/lib/db.ts:51-60 | a built row has the `id` key and one key per header; its id is `row-<i>` unless a header is `id`; each header holds its converted trimmed field |
| Db.CsvRowFields | src/lib/db.ts:51-60 | under the last occurrence of each header, a built row holds that field trimmed and converted (a later duplicate header overwrites an earlier one) |
| Db.CsvRowAt | src/lib/db.ts:41-62 | every kept row has exactly the keys `id` and the headers, each holding the converted trimmed field of its line |
| Db.CsvRowId | src/lib/db.ts:51 | unless a header is named `id`, kept row k has the id `row-<i>` of its original line i |
| Db.CsvRowIdsDistinct | src/lib/db.ts:41-62 | unless a header is named `id`, the kept rows carry pairwise distinct ids |
| Db.CsvColumnsSpec | src/lib/db.ts:65-74 | column j is named by header j, labelled by the label rule, typed from the first kept row's value under that header, and typed string when no row was kept |
| Db.CsvFirstValueNotBoolean | src/lib/db.ts:52-68 | the first row's value under a header is never a boolean |
| Db.CsvColumnsNeverBoolean | src/lib/db.ts:52-74 | no CSV column is ever typed boolean |
| Db.FindDataset | src/lib/db.ts:106 | `find` returns nothing exactly when no dataset has the id, and otherwise the first stored dataset with that id |
| Db.DatasetId | src/lib/db.ts:86 | the id is `dataset-` followed by the decimal text of the counter, from which the counter reads back |
| Db.Project | src/lib/db.ts:120-123 | one point per row |
| Db.Store.constructor | src/lib/db.ts:6-7 | the store starts empty with the counter at 0 |
| Db.Store.AddDataset | src/lib/db.ts:85-97 | the counter goes up by one; exactly one dataset with id `dataset-<counter>` is appended and earlier entries stay as they were |
| Db.Store.GetDatasets | src/lib/db.ts:100-102 | returns all stored datasets, whose ids are pairwise distinct |
| Db.Store.GetDatasetById | src/lib/db.ts:105-107 | finds nothing exactly when no stored dataset has the id, and otherwise a stored dataset with that id |
| Db.Store.GetColumns | src/lib/db.ts:110-113 | the dataset's columns when the id is found, and none otherwise |
| Db.Store.GetDataForColumns | src/lib/db.ts:116-124 | no points for an unknown id; otherwise one `{x: row[x], y: row[y]}` per row, in row order |
| Db.Store.ClearData | src/lib/db.ts:127-130 | the store is empty and the counter is 0 |
| Db.StoreIdsDistinct | src/lib/db.ts:85-97 | the ids of the stored datasets are pairwise distinct |
| Db.StoreFindsById | src/lib/db.ts:85-107 | the n-th dataset added since the last clear is the one found by `dataset-<n>` |
| ManualInput.ManualField | src/components/ManualDataInput.tsx:119-136 | a number column gives a number exactly for a numeric token; a boolean column gives true exactly when the lowercased token is `true`; everything else, a column with an `undefined` type included, is the token unchanged |
| ManualInput.ManualFields | src/components/ManualDataInput.tsx:119-137 | one converted field per token, whatever the number of types; a token past the end of the types is kept as text |
| ManualInput.ManualLine | src/components/ManualDataInput.tsx:108-139 | a line yields a row exactly when its comma-split count equals the number of declared names |
| ManualInput.ManualLineResults | src/components/ManualDataInput.tsx:104-140 | one result per line of the trimmed block |
| ManualInput.DeclaredColumns | src/components/ManualDataInput.tsx:143-147 | one column per declared name, in declaration order, with the derived label and the declared type, or an `undefined` type past the end of the types |
| ManualInput.ManualLines | src/components/ManualDataInput.tsx:104 | the lines of the trimmed block: none contains a newline, and joined with newlines they give back the trimmed block |
| ManualInput.ManualSpec | src/components/ManualDataInput.tsx:102-155 | at most one row per line of the trimmed block (its newlines plus one), and one column per declared name with that name and the declared type, or an `undefined` type when the form holds fewer types than names |
| ManualInput.BuildManualRow | src/components/ManualDataInput.tsx:116-137 | the loop over the names builds the row the specification function describes |
| ManualInput.ParseManualLine | src/components/ManualDataInput.tsx:108-139 | one pass of the `forEach` body yields exactly what the line yields: nothing for a wrong field count, otherwise the built row |
| ManualInput.ParseManualLines | src/components/ManualDataInput.tsx:104-140 | the loop over the lines returns exactly the rows of the lines with the right field count, in line order |
| ManualInput.ParseManualData | src/components/ManualDataInput.tsx:102-149 | the result equals `ManualSpec`: the rows of the kept lines of the trimmed block and the declared columns |
| ManualInput.ManualKeptLines | src/components/ManualDataInput.tsx:104-140 | kept rows come from lines with the right count, in increasing line order; every such line is kept, so a rejected line does not stop later ones |
| ManualInput.ManualKeptRow | src/components/ManualDataInput.tsx:108-139 | row k is the row built from its kept line i, with id `row-<i>` counting rejected lines too |
| ManualInput.ManualRowAt | src/components/ManualDataInput.tsx:116-137 | with distinct names, kept row k has id `row-<i>` (unless a name is `id`), and each name holds its line's trimmed field converted by the declared type; a name with no type holds the trimmed field as text |
| ManualInput.ManualRowContent | src/components/ManualDataInput.tsx:116-137 | with distinct names, the row built from line i has id `row-<i>` unless a name is `id`, and under each name the trimmed field converted by that column's type; a name with no type holds the trimmed field as text |
| ManualInput.ManualFieldsExtraTypes | src/components/ManualDataInput.tsx:119-137 | types beyond the tokens do not change the converted fields |
| ManualInput.ManualLineExtraTypes | src/components/ManualDataInput.tsx:108-139 | types beyond the names do not change what a line yields |
| ManualInput.ManualExtraTypesIgnored | src/components/ManualDataInput.tsx:102-149 | types beyond the names do not change the rows or the columns `parseManualData` returns |
| ManualInput.ManualRowId | src/components/ManualDataInput.tsx:116 | unless a name is `id`, kept row k has the id `row-<i>` of the line i it came from |
| ManualInput.ManualRowIdsDistinct | src/components/ManualDataInput.tsx:104-140 | unless a name is `id`, the rows of one manual block carry pairwise distinct ids |
| ManualInput.CheckSubmit | src/components/ManualDataInput.tsx:158-168 | the submit goes ahead exactly when the schema holds (non-empty name, column names and data), the name is not blank and no column name repeats; each error is reported for exactly its case, in that order |
| ManualInput.SchemaValid | src/components/ManualDataInput.tsx:31-36 | the schema holds exactly when the dataset name and the data are non-empty and no column name is empty |
| ManualInput.DefaultLists | src/components/ManualDataInput.tsx:43-56 | the initial editor holds two unnamed columns, text and number, with the three lists in step |
| ManualInput.ResetAsWritten | src/components/ManualDataInput.tsx:187 | `form.reset()` sets the form's names and types back to their defaults and leaves `columns`, so the lists fall out of step whenever `columns` holds other than two entries |
| ManualInput.RemoveFromLists | src/components/ManualDataInput.tsx:64-80 | refused with two or fewer columns; lists in step stay in step and lose exactly one entry |
| ManualInput.RemoveAfterResetDropsName | src/components/ManualDataInput.tsx:64-80 | removing one of the first two columns after the reset as written, with three or more shown, leaves the form one column name while two or more columns are shown |
| ManualInput.ResetAsWrittenDesyncs | src/components/ManualDataInput.tsx:187 | after a submit the schema accepted, the reset as written leaves the displayed columns out of step with the form's names |
| ManualInput.ResetCorrected | src/components/ManualDataInput.tsx:185-188 | resetting all three lists together restores the form's defaults and keeps them in step |
| ManualInput.ManualForm.constructor | src/components/ManualDataInput.tsx:43-56 | the editor starts with the defaults, an empty name and no data |
| ManualInput.ManualForm.AddColumn | src/components/ManualDataInput.tsx:58-62 | appends an unnamed text column to each of the three lists, in step or not; lists in step stay in step |
| ManualInput.ManualForm.RemoveColumn | src/components/ManualDataInput.tsx:64-80 | on any three lists, in step or not: refused with two or fewer columns; otherwise each list loses its entry at the index, if it has one; lists in step stay in step |
| ManualInput.ManualForm.SetColumnName | src/components/ManualDataInput.tsx:82-90 | changes only the given index of `columns` and of the form's names, appending to the names when the index is one past their end; lists in step stay in step |
| ManualInput.ManualForm.SetColumnType | src/components/ManualDataInput.tsx:92-100 | changes only the given index of `columns` and of the form's types to one of the four types the picker offers, appending to the types when the index is one past their end; lists in step stay in step |
| ManualInput.ManualForm.SetDatasetName | src/components/ManualDataInput.tsx:206-218 | sets the dataset name and nothing else |
| ManualInput.ManualForm.SetRawData | src/components/ManualDataInput.tsx:282-302 | sets the data block and nothing else |
| ManualInput.ManualForm.Save | src/components/ManualDataInput.tsx:183-188 | stores exactly one new dataset under the next id with the name as typed, the parsed rows and columns, then resets the form's arrays and the column list together (the corrected reset) |
| ManualInput.ManualForm.ParseAndSave | src/components/ManualDataInput.tsx:170-188 | an empty parse is refused with "no valid data" and changes nothing; otherwise the parsed dataset is saved and the form reset with the corrected reset |
| ManualInput.ManualForm.Submit | src/components/ManualDataInput.tsx:157-192 | a failed check or an empty parse changes nothing and reports why; otherwise exactly one dataset, holding the parsed rows and columns under the typed name, is added and the form is reset with the corrected reset |
| DataTable.ValueText | src/components/DataTable.tsx:21 | `String(value)`: a string is itself, a number is the host's rendering, a boolean is `true` or `false`, and a missing value is `undefined` |
| DataTable.RowMatches | src/components/DataTable.tsx:20-22 | a row whose id contains the query, ignoring case, matches; a match needs some value at least as long as the query |
| DataTable.FilteredData | src/components/DataTable.tsx:17-23 | a blank query keeps every row; otherwise no more rows than given, each matching the query |
| DataTable.FilteredDataSpec | src/components/DataTable.tsx:17-23 | a blank query leaves the rows as they are; otherwise the result is the matching rows in their original order, none missing |
| DataTable.FilteredDataMembers | src/components/DataTable.tsx:17-23 | a row is shown exactly when it is a row of the dataset and the query is blank or matches it |
| DataTable.LowerBlankIff | src/components/DataTable.tsx:17-21 | a query is blank exactly when its lowercased form is |
| DataTable.SearchIgnoresCase | src/components/DataTable.tsx:17-23 | lowercasing the query first changes no search result |
| DataTable.CellText | src/components/DataTable.tsx:83 | a cell shows `-` for a key that is absent or holds `undefined`, and the value's string form otherwise |
| DataTable.TotalPages | src/components/DataTable.tsx:25 | the page count is the ceiling of the row count over 10, and 0 only for no rows |
| DataTable.ShowPager | src/components/DataTable.tsx:99 | the pager is shown exactly when there is more than one page |
| DataTable.RangeStart | src/components/DataTable.tsx:102 | the first shown position is 1, 11, 21 and so on |
| DataTable.RangeEnd | src/components/DataTable.tsx:103-105 | the last shown position is within the rows and less than ten past the first, and exactly ten past it less one on every page but the last |
| DataTable.StartIndex | src/components/DataTable.tsx:26 | page p starts at the multiple of 10 for p - 1 |
| DataTable.CurrentData | src/components/DataTable.tsx:27 | a page holds at most 10 rows, the consecutive rows from its start index |
| DataTable.PageCoverage | src/components/DataTable.tsx:25-27 | row k appears on page k / 10 + 1 at position k % 10, and that page is within the page count |
| DataTable.PageInRangeNotEmpty | src/components/DataTable.tsx:25-27 | a page within range is never empty, and every page before the last is full |
| DataTable.RangeCountsRows | src/components/DataTable.tsx:101-106 | "Showing a to b" on a page within range counts exactly the rows on that page |
| DataTable.PageButtons | src/components/DataTable.tsx:119-132 | `min(totalPages, 5)` numbered buttons, pages 1 upward, each an existing page |
| DataTable.ShowEllipsis | src/components/DataTable.tsx:134-136 | the ellipsis appears only together with the last-page button |
| DataTable.ShowLastButton | src/components/DataTable.tsx:138-147 | the last-page button is never shown on the last page, nor when the last page already has a numbered button |
| DataTable.IsPageButton | src/components/DataTable.tsx:119-147 | every button leads to an existing page, and a page beyond the fifth only through the last-page button |
| DataTable.LastButtonNeverCurrent | src/components/DataTable.tsx:119-147 | in a table view whose pager is shown, the last-page button is never the current page, and the current page's button is highlighted exactly when the page is among the first five |
| DataTable.TableView.constructor | src/components/DataTable.tsx:13-14 | the view starts with an empty query on page 1 |
| DataTable.TableView.SetQuery | src/components/DataTable.tsx:46-49 | editing the query sets it and returns to page 1 |
| DataTable.TableView.ClearSearch | src/components/DataTable.tsx:33-36 | clearing empties the query, returns to page 1 and shows every row |
| DataTable.TableView.PrevPage | src/components/DataTable.tsx:110-117 | the enabled previous button moves one page back and keeps the page in range |
| DataTable.TableView.NextPage | src/components/DataTable.tsx:149-155 | the enabled next button moves one page on and keeps the page in range |
| DataTable.TableView.GoToPage | src/components/DataTable.tsx:119-147 | a page button moves to its page, which is in range |
| DataTable.ViewShowsRows | src/components/DataTable.tsx:25-27 | whatever the handlers did, the current page shows rows whenever some row matches |
| Graph.NumericColumnsSpec | src/components/Graph.tsx:37 | the numeric columns are the columns typed number, in order, none missing |
| Graph.NumericColumns | src/components/Graph.tsx:37 | no more columns than given, each typed number |
| Graph.FindColumn | src/components/Graph.tsx:84 | `find` returns nothing exactly when no column has the name, and otherwise the first column with it |
| Graph.AxisLabel | src/components/Graph.tsx:84-85 | the label of the found column when it is non-empty, and the raw name when no column matches |
| Graph.AxisLabelOfDerivedColumns | src/components/Graph.tsx:84-85 | for ingested columns the axis label is the derived label of the name when a column has it, and the name otherwise |
| Graph.YAxisOptions | src/components/Graph.tsx:348-369 | the numeric columns when any exist, all columns otherwise |
| Graph.YAxisOptionsAreColumns | src/components/Graph.tsx:348-369 | every Y option is a column, and a numeric one whenever any column is numeric |
| Graph.OptionValue | src/components/Graph.tsx:328 | an option's value is never empty: the name, or exactly `default` for an unnamed column |
| Graph.PieData | src/components/Graph.tsx:253-256 | the first `min(10, n)` points, in order, x as name and y as value |
| Graph.SliceColor | src/components/Graph.tsx:275 | the colour is always a palette entry, `COLORS[i % 10]`, repeating every ten slices |
| Graph.ColorsDistinct | src/components/Graph.tsx:25-28 | the palette has ten different colours |
| Graph.PieColorsDistinct | src/components/Graph.tsx:253-276 | any two slices of one pie get different colours |
| Graph.GraphView.constructor | src/components/Graph.tsx:31-34 | line chart, no axes, no points |
| Graph.GraphView.AutoSelect | src/components/Graph.tsx:39-45 | with two or more numeric columns and no axis chosen, X becomes the first numeric column and Y the second; otherwise nothing changes |
| Graph.GraphView.SelectX | src/components/Graph.tsx:322 | sets the X axis only |
| Graph.GraphView.SelectY | src/components/Graph.tsx:343 | sets the Y axis only |
| Graph.GraphView.SelectChartType | src/components/Graph.tsx:310 | sets the chart type only |
| Graph.GraphView.GenerateGraph | src/components/Graph.tsx:47-63 | refused exactly when an axis is empty, leaving the points unchanged; otherwise the points become the store's projection on the two axes |
| Graph.AutoSelectPicksNumeric | src/components/Graph.tsx:37-44 | the auto-selected axes are the first two number-typed columns in list order, two different entries |

## Left out

- The React rendering, styling, charts, toasts and `console` logging of every file, and the pages, routing, authentication and file upload around them.
- The `onDataCreated` callback and the loading flags of the chart and the store calls. `async`/`await` is modelled as a plain call, since none of these calls waits on anything.
- The `try`/`catch` blocks:
  - in `parseCSV`, the only error thrown is the fewer-than-two-lines one, which is modelled by its result;
  - in `parseManualData` and `handleGenerateGraph`, nothing in the modelled code throws.
- `createdAt: new Date()` is the clock reading `now`, passed in by the caller.
- `Number(s)`, `isNaN`, `new Date(s)` and `String(n)` are the `Host` functions, since floating point and date parsing are not modelled. In particular, whether an empty token in a number column of the manual form counts as numeric is up to the host: `Number('')` is 0 in JavaScript, and unlike the CSV ingester, `parseManualData` has no empty-token guard.
- Db.InferColumnType: the date test's `value.length > 5` counts characters here, while JavaScript counts UTF-16 code units.
- Text.ToLower: folds ASCII letters only, while JavaScript's `toLowerCase` also folds other scripts. It serves the table search (`DataTable.SearchIgnoresCase`) and the boolean test of `ManualInput.ManualField`; for the latter it matters only for a non-ASCII letter that JavaScript lowers to one of `t`, `r`, `u` or `e`.
- A row is a map from keys to values. Keys that JavaScript objects treat specially, such as `__proto__`, are not modelled.
- Db.Store.GetDatasets: returns the store's list as a value. The source returns the array itself, so a caller could alter the store through it.
- DataTable.TableView: the rows are fixed for the view's lifetime. A new `dataset` prop without a remount keeps the current page, and that case is not modelled.
- The auto-select effect runs when React sees new `columns`. The model offers it as a method; when it is called is not modelled.
- The selected-dataset fallback of `src/pages/Input.tsx` is not part of this model.
- ManualInput.ManualForm.Save: resets the `columns` list together with the form's names and types (`ResetCorrected`). The source's `form.reset()` leaves `columns` as it was; that reset is `ResetAsWritten`, and the out-of-step lists it leaves are stated by `ResetAsWrittenDesyncs` and `RemoveAfterResetDropsName`, not by the class.
- ManualInput.ManualForm.ParseAndSave: saves through `Save`, so it resets with `ResetCorrected` rather than the source's `form.reset()`.
- ManualInput.ManualForm.Submit: saves through `ParseAndSave`, so it resets with `ResetCorrected` rather than the source's `form.reset()`.
- ManualInput.ManualForm.SetColumnName: requires the index to be at most one past the end of the form's names. At one past the end, JavaScript appends, and so does the model. On out-of-step lists the source can also write two or more places past the end, which leaves `undefined` holes in the array; a sequence of strings does not represent them.
- ManualInput.ManualForm.SetColumnType: requires the index to be at most one past the end of the form's types, for the same reason as `SetColumnName`.

## Findings

| source | as written | input that shows it | evidently intended | confidence | as-written member | corrected member |
|---|---|---|---|---|---|---|
| src/components/ManualDataInput.tsx:187 | after a successful save, `form.reset()` puts the form's `columnNames`/`columnTypes` back to `['','']`/`['string','number']`, but leaves the `columns` state that the name and type inputs display | save a dataset with columns `a`,`b` and the line `1,2`: the inputs still show `a` and `b` while the form holds two empty names, so the next submit fails the schema without a message on the column inputs | the editor and the form return to two unnamed columns together | high, not executed | ManualInput.ResetAsWrittenDesyncs | ManualInput.ResetCorrected |

=== FILE: Collections.dfy ===
/**
 * Sequence operations shared by the ingesters and the views: keeping the
 * present entries of a sequence of optional results in order (the
 * `push`-inside-a-loop-with-`continue` pattern, and `Array.prototype.filter`),
 * duplicate detection through a set, and `Array.prototype.slice`.
 */
module Collections {

  datatype Option<T> = None | Some(value: T)

  // ---------------------------------------------------------------------------
  // keeping the present entries, in order
  // ---------------------------------------------------------------------------

  /** The positions of `opts` that hold a value, in increasing order. */
  function KeptIndices<T>(opts: seq<Option<T>>): (ix: seq<nat>)
    ensures |ix| <= |opts|
    ensures forall k :: 0 <= k < |ix| ==> ix[k] < |opts| && opts[ix[k]].Some?
    ensures forall k, l :: 0 <= k < l < |ix| ==> ix[k] < ix[l]
    ensures forall i :: 0 <= i < |opts| && opts[i].Some? ==> i in ix
  {
    if opts == [] then []
    else
      var n := |opts| - 1;
      var init := opts[..n];
      var prefix := KeptIndices(init);
      assert forall k :: 0 <= k < |prefix| ==> init[prefix[k]] == opts[prefix[k]];
      if opts[n].Some? then prefix + [n] else prefix
  }

  /** The values of `opts`, in order, skipping the absent ones. */
  function Collect<T>(opts: seq<Option<T>>): (r: seq<T>)
    ensures |r| == |KeptIndices(opts)|
    ensures forall k :: 0 <= k < |r| ==> opts[KeptIndices(opts)[k]] == Some(r[k])
  {
    if opts == [] then []
    else
      var n := |opts| - 1;
      var init := opts[..n];
      var prefix := Collect(init);
      var pix := KeptIndices(init);
      assert forall k :: 0 <= k < |prefix| ==> init[pix[k]] == opts[pix[k]];
      assert KeptIndices(opts) == if opts[n].Some? then pix + [n] else pix;
      match opts[n]
      case Some(v) => prefix + [v]
      case None => prefix
  }

  /** Collecting one more entry appends its value, if any, to what was collected so far. */
  lemma CollectSnoc<T>(opts: seq<Option<T>>, i: nat, acc: seq<T>)
    requires i < |opts| && acc == Collect(opts[..i])
    ensures opts[i].None? ==> Collect(opts[..i + 1]) == acc
    ensures opts[i].Some? ==> Collect(opts[..i + 1]) == acc + [opts[i].value]
  {
    assert opts[..i + 1][..i] == opts[..i];
  }

  /** A value is collected exactly when some position holds it. */
  lemma CollectMembers<T>(opts: seq<Option<T>>, x: T)
    ensures x in Collect(opts) <==> Some(x) in opts
  {
    var r, ix := Collect(opts), KeptIndices(opts);
    if Some(x) in opts {
      var i :| 0 <= i < |opts| && opts[i] == Some(x);
      var k :| 0 <= k < |ix| && ix[k] == i;
      assert r[k] == x;
    }
  }

  /** The position of each entry of `s`, tagged with whether it passes `p`. */
  function Tag<T>(s: seq<T>, p: T -> bool): (opts: seq<Option<T>>)
    ensures |opts| == |s|
  {
    seq(|s|, i requires 0 <= i < |s| => if p(s[i]) then Some(s[i]) else None)
  }

  /** `s.filter(p)` */
  function Filter<T>(s: seq<T>, p: T -> bool): (r: seq<T>)
    ensures |r| <= |s|
    ensures forall k :: 0 <= k < |r| ==> p(r[k])
  {
    Collect(Tag(s, p))
  }

  /**
   * Filter keeps exactly the entries that pass, in their original order:
   * the k-th kept entry sits at position `KeptIndices(Tag(s, p))[k]` of `s`,
   * positions increase with k, and every passing position is kept.
   */
  lemma FilterSpec<T>(s: seq<T>, p: T -> bool)
    ensures var r, ix := Filter(s, p), KeptIndices(Tag(s, p));
      && |r| == |ix| <= |s|
      && (forall k :: 0 <= k < |r| ==> ix[k] < |s| && r[k] == s[ix[k]] && p(r[k]))
      && (forall k, l :: 0 <= k < l < |ix| ==> ix[k] < ix[l])
      && (forall i :: 0 <= i < |s| && p(s[i]) ==> i in ix)
  {
  }

  /** An entry is in the filtered sequence exactly when it is in `s` and passes. */
  lemma FilterMembers<T>(s: seq<T>, p: T -> bool, x: T)
    ensures x in Filter(s, p) <==> x in s && p(x)
  {
    CollectMembers(Tag(s, p), x);
    if x in s && p(x) {
      var i :| 0 <= i < |s| && s[i] == x;
      assert Tag(s, p)[i] == Some(x);
    }
  }

  // ---------------------------------------------------------------------------
  // duplicates
  // ---------------------------------------------------------------------------

  predicate Distinct<T(==)>(s: seq<T>) {
    forall i, j :: 0 <= i < j < |s| ==> s[i] != s[j]
  }

  /** `new Set(s)` */
  function ToSet<T>(s: seq<T>): set<T> {
    set x | x in s
  }

  /** The set of a sequence is no larger than the sequence. */
  lemma {:induction false} ToSetSize<T>(s: seq<T>)
    ensures |ToSet(s)| <= |s|
    ensures Distinct(s) ==> |ToSet(s)| == |s|
  {
    if s != [] {
      var n := |s| - 1;
      ToSetSize(s[..n]);
      assert ToSet(s) == ToSet(s[..n]) + {s[n]};
      if s[n] !in ToSet(s[..n]) {
        assert |ToSet(s)| == |ToSet(s[..n])| + 1;
      } else {
        assert ToSet(s) == ToSet(s[..n]);
      }
    }
  }

  /** `new Set(s).size === s.length` holds exactly when `s` has no repeated entry. */
  lemma {:induction false} DistinctIffSetSize<T>(s: seq<T>)
    ensures |ToSet(s)| == |s| <==> Distinct(s)
  {
    ToSetSize(s);
    if !Distinct(s) {
      var i, j :| 0 <= i < j < |s| && s[i] == s[j];
      var t := s[..j] + s[j + 1..];
      assert ToSet(s) == ToSet(t) by {
        forall x | x in ToSet(s) ensures x in ToSet(t) {
          var k :| 0 <= k < |s| && s[k] == x;
          if k < j { assert t[k] == x; }
          else if k == j { assert t[i] == x; }
          else { assert t[k - 1] == x; }
        }
      }
      ToSetSize(t);
    }
  }

  // ---------------------------------------------------------------------------
  // slice
  // ---------------------------------------------------------------------------

  function Min(a: int, b: int): int { if a <= b then a else b }

  /**
   * `s.splice(i, 1)` on a copy of `s`: entry `i` removed and the later ones
   * moved up one place, or nothing removed when `i` is past the end.
   */
  function Splice<T>(s: seq<T>, i: nat): (r: seq<T>)
    ensures i < |s| ==> |r| == |s| - 1
    ensures i < |s| ==> forall k :: 0 <= k < |r| ==> r[k] == if k < i then s[k] else s[k + 1]
    ensures i >= |s| ==> r == s
  {
    if i < |s| then s[..i] + s[i + 1..] else s
  }

  /** `s.slice(start, end)` for non-negative bounds: both are clamped to the length. */
  function Slice<T>(s: seq<T>, start: nat, end: nat): (r: seq<T>)
    ensures |r| <= |s| && (start <= end ==> |r| <= end - start)
    ensures start <= |s| && start <= end ==> r == s[start..Min(end, |s|)]
    ensures start >= |s| || end <= start ==> r == []
  {
    var a := Min(start, |s|);
    var b := Min(end, |s|);
    if a <= b then s[a..b] else []
  }
}

=== FILE: DataTable.dfy ===
/**
 * src/components/DataTable.tsx: the case-insensitive search over a
 * dataset's rows, the ten-rows-per-page slicing, the pager's display rules,
 * and the `searchQuery` / `currentPage` state its handlers update.
 */
module DataTable {
  import opened Text
  import opened Collections
  import opened Types

  // ---------------------------------------------------------------------------
  // search
  // ---------------------------------------------------------------------------

  /** `String(value)` for a cell. */
  function ValueText(h: Host, v: Value): (t: string)
    ensures v.Str? ==> t == v.s
    ensures v.Num? ==> t == h.numberToString(v.n)
    ensures v.Bool? ==> t == (if v.b then "true" else "false")
    ensures v.Missing? ==> t == "undefined"
  {
    match v
    case Str(s) => s
    case Num(n) => h.numberToString(n)
    case Bool(b) => if b then "true" else "false"
    case Missing => "undefined"
  }

  /** Some value of the row (the id included) contains the query, both lowercased. */
  function RowMatches(h: Host, row: Row, q: string): (b: bool)
    ensures "id" in row && Contains(ToLower(ValueText(h, row["id"])), ToLower(q)) ==> b
    ensures b ==> exists k :: k in row && |q| <= |ValueText(h, row[k])|
  {
    exists k :: k in row && Contains(ToLower(ValueText(h, row[k])), ToLower(q))
  }

  /** The filter callback, as one function value so that every use of it is the same. */
  function Matches(h: Host, q: string): Row -> bool {
    row => RowMatches(h, row, q)
  }

  /** `filteredData`: every row for a blank query, otherwise the rows that match the untrimmed query. */
  function FilteredData(h: Host, data: seq<Row>, q: string): (r: seq<Row>)
    ensures Trim(q) == "" ==> r == data
    ensures |r| <= |data|
    ensures Trim(q) != "" ==> forall k :: 0 <= k < |r| ==> RowMatches(h, r[k], q)
  {
    if Trim(q) == "" then data else Filter(data, Matches(h, q))
  }

  /**
   * A query that is blank after trimming leaves the rows as they are;
   * otherwise the result is the subsequence of the rows that match, in
   * their original order, with none of the matching rows missing.
   */
  lemma FilteredDataSpec(h: Host, data: seq<Row>, q: string)
    ensures Trim(q) == "" ==> FilteredData(h, data, q) == data
    ensures Trim(q) != "" ==>
      var r, ix := FilteredData(h, data, q), KeptIndices(Tag(data, Matches(h, q)));
      && |r| == |ix| <= |data|
      && (forall k :: 0 <= k < |r| ==> ix[k] < |data| && r[k] == data[ix[k]] && RowMatches(h, r[k], q))
      && (forall k, l :: 0 <= k < l < |ix| ==> ix[k] < ix[l])
      && (forall i :: 0 <= i < |data| && RowMatches(h, data[i], q) ==> i in ix)
  {
    FilterSpec(data, Matches(h, q));
  }

  /** A row survives the search exactly when it is one of the rows and the query is blank or matches it. */
  lemma FilteredDataMembers(h: Host, data: seq<Row>, q: string, row: Row)
    ensures row in FilteredData(h, data, q) <==> row in data && (Trim(q) == "" || RowMatches(h, row, q))
  {
    if Trim(q) != "" {
      FilterMembers(data, Matches(h, q), row);
    }
  }

  /** Lowercasing leaves a character's whitespace-ness alone. */
  lemma LowerCharWhitespace(c: char)
    ensures IsWhitespace(LowerChar(c)) <==> IsWhitespace(c)
  {
  }

  /** A query is blank exactly when its lowercased form is. */
  lemma LowerBlankIff(q: string)
    ensures (Trim(ToLower(q)) == "") == (Trim(q) == "")
  {
    var lq := ToLower(q);
    TrimEmptyIff(q);
    TrimEmptyIff(lq);
    forall i | 0 <= i < |q| ensures IsWhitespace(lq[i]) <==> IsWhitespace(q[i]) {
      LowerCharWhitespace(q[i]);
    }
  }

  /** The search ignores the case of the query: lowercasing it first changes nothing. */
  lemma SearchIgnoresCase(h: Host, data: seq<Row>, q: string)
    ensures FilteredData(h, data, ToLower(q)) == FilteredData(h, data, q)
  {
    var lq := ToLower(q);
    LowerBlankIff(q);
    ToLowerIdempotent(q);
    if Trim(q) != "" {
      var a, b := Tag(data, Matches(h, lq)), Tag(data, Matches(h, q));
      forall i | 0 <= i < |data| ensures a[i] == b[i] {
        assert RowMatches(h, data[i], lq) == RowMatches(h, data[i], q);
      }
      assert a == b;
    }
  }

  /** What a cell shows: the value as a string, or `-` when the key is absent or holds `undefined`. */
  function CellText(h: Host, row: Row, column: string): (t: string)
    ensures column !in row ==> t == "-"
    ensures Lookup(row, column) == Missing ==> t == "-"
    ensures Lookup(row, column) != Missing ==> t == ValueText(h, Lookup(row, column))
  {
    if Lookup(row, column) == Missing then "-" else ValueText(h, Lookup(row, column))
  }

  // ---------------------------------------------------------------------------
  // pages
  // ---------------------------------------------------------------------------

  const ItemsPerPage: nat := 10

  /** `Math.ceil(n / itemsPerPage)`: the fewest pages of ten that hold n rows. */
  function TotalPages(n: nat): (t: nat)
    ensures n <= t * ItemsPerPage
    ensures t == 0 || (t - 1) * ItemsPerPage < n
    ensures t == 0 <==> n == 0
  {
    (n + ItemsPerPage - 1) / ItemsPerPage
  }

  /** `(currentPage - 1) * itemsPerPage` */
  function StartIndex(page: nat): (i: nat)
    requires page >= 1
    ensures i % ItemsPerPage == 0 && i / ItemsPerPage == page - 1
  {
    (page - 1) * ItemsPerPage
  }

  /** `filteredData.slice(startIndex, startIndex + itemsPerPage)` */
  function CurrentData(rows: seq<Row>, page: nat): (r: seq<Row>)
    requires page >= 1
    ensures |r| <= ItemsPerPage
    ensures |r| > 0 ==> StartIndex(page) + |r| <= |rows|
    ensures forall j :: 0 <= j < |r| ==> r[j] == rows[StartIndex(page) + j]
  {
    Slice(rows, StartIndex(page), StartIndex(page) + ItemsPerPage)
  }

  /**
   * Every row lies on exactly one page: row k is entry k % 10 of page
   * k / 10 + 1, and that page is one of the `totalPages` pages.
   */
  lemma PageCoverage(rows: seq<Row>, k: nat)
    requires k < |rows|
    ensures var page := k / ItemsPerPage + 1;
      && 1 <= page <= TotalPages(|rows|)
      && k % ItemsPerPage < |CurrentData(rows, page)|
      && CurrentData(rows, page)[k % ItemsPerPage] == rows[k]
  {
    var page := k / ItemsPerPage + 1;
    assert StartIndex(page) + k % ItemsPerPage == k;
  }

  /** A page within range shows at least one row, and a full ten on every page but the last. */
  lemma PageInRangeNotEmpty(rows: seq<Row>, page: nat)
    requires 1 <= page <= TotalPages(|rows|)
    ensures 0 < |CurrentData(rows, page)|
    ensures page < TotalPages(|rows|) ==> |CurrentData(rows, page)| == ItemsPerPage
  {
    var t := TotalPages(|rows|);
    assert (page - 1) * ItemsPerPage <= (t - 1) * ItemsPerPage;
    if page < t {
      assert page * ItemsPerPage <= (t - 1) * ItemsPerPage;
    }
  }

  // ---------------------------------------------------------------------------
  // the pager
  // ---------------------------------------------------------------------------

  /** The pager is shown only when the rows do not fit on one page. */
  function ShowPager(n: nat): (b: bool)
    ensures b <==> TotalPages(n) > 1
  {
    n > ItemsPerPage
  }

  /** "Showing a to b of n": the first shown position, counted from 1. */
  function RangeStart(page: nat): (a: nat)
    requires page >= 1
    ensures a >= 1 && a % ItemsPerPage == 1
  {
    StartIndex(page) + 1
  }

  /** "Showing a to b of n": the last shown position. */
  function RangeEnd(page: nat, n: nat): (b: nat)
    requires page >= 1
    ensures b <= n && b < RangeStart(page) + ItemsPerPage
    ensures page < TotalPages(n) ==> b == RangeStart(page) + ItemsPerPage - 1
  {
    Min(StartIndex(page) + ItemsPerPage, n)
  }

  /** On a page within range, "Showing a to b" counts exactly the rows on the page. */
  lemma RangeCountsRows(rows: seq<Row>, page: nat)
    requires 1 <= page <= TotalPages(|rows|)
    ensures RangeStart(page) <= RangeEnd(page, |rows|)
    ensures RangeEnd(page, |rows|) - RangeStart(page) + 1 == |CurrentData(rows, page)|
  {
    PageInRangeNotEmpty(rows, page);
  }

  /** The numbered buttons: pages 1 to `min(totalPages, 5)`. */
  function PageButtons(t: nat): (b: seq<nat>)
    ensures |b| == Min(t, 5) <= 5
    ensures forall i :: 0 <= i < |b| ==> 1 <= b[i] <= t && b[i] == i + 1
  {
    seq(Min(t, 5), i => i + 1)
  }

  /** The ellipsis after the numbered buttons. */
  function ShowEllipsis(t: nat, page: nat): (b: bool)
    ensures b ==> ShowLastButton(t, page)
  {
    t > 5 && page < t - 2
  }

  /** The separate button for the last page. */
  function ShowLastButton(t: nat, page: nat): (b: bool)
    ensures b ==> page != t && Min(t, 5) < t
  {
    t > 5 && page < t - 1
  }

  /** The pages a button of the pager leads to while on `page` of `t`. */
  function IsPageButton(t: nat, page: nat, p: nat): (b: bool)
    ensures b ==> 1 <= p <= t
    ensures b && p > 5 ==> p == t && ShowLastButton(t, page)
  {
    (1 <= p <= Min(t, 5)) || (ShowLastButton(t, page) && p == t)
  }

  // ---------------------------------------------------------------------------
  // the component's state
  // ---------------------------------------------------------------------------

  /** The table of one dataset, with its search box and current page. */
  class TableView {
    const h: Host
    const data: seq<Row>
    var searchQuery: string
    var currentPage: nat

    function Filtered(): seq<Row>
      reads this
    {
      FilteredData(h, data, searchQuery)
    }

    function Pages(): nat
      reads this
    {
      TotalPages(|Filtered()|)
    }

    /** The current page is 1, or one of the pages the filtered rows fill. */
    ghost predicate Valid()
      reads this
    {
      1 <= currentPage && (currentPage == 1 || currentPage <= Pages())
    }

    function CurrentRows(): seq<Row>
      reads this
      requires Valid()
    {
      CurrentData(Filtered(), currentPage)
    }

    constructor (h: Host, data: seq<Row>)
      ensures Valid() && this.h == h && this.data == data
      ensures searchQuery == "" && currentPage == 1
    {
      this.h := h;
      this.data := data;
      searchQuery := "";
      currentPage := 1;
    }

    /** Typing in the search box: the query changes and the view goes back to page 1. */
    method SetQuery(q: string)
      requires Valid()
      modifies this
      ensures Valid() && searchQuery == q && currentPage == 1
    {
      searchQuery := q;
      currentPage := 1;
    }

    /** The clear button: empty query, page 1. */
    method ClearSearch()
      requires Valid()
      modifies this
      ensures Valid() && searchQuery == "" && currentPage == 1
      ensures Filtered() == data
    {
      searchQuery := "";
      currentPage := 1;
    }

    /** The previous-page button, enabled when not on page 1. */
    method PrevPage()
      requires Valid() && ShowPager(|Filtered()|) && currentPage != 1
      modifies this
      ensures Valid() && currentPage == old(currentPage) - 1 && searchQuery == old(searchQuery)
    {
      currentPage := currentPage - 1;
    }

    /** The next-page button, enabled when not on the last page. */
    method NextPage()
      requires Valid() && ShowPager(|Filtered()|) && currentPage != Pages()
      modifies this
      ensures Valid() && currentPage == old(currentPage) + 1 && searchQuery == old(searchQuery)
    {
      currentPage := currentPage + 1;
    }

    /** A numbered button or the last-page button. */
    method GoToPage(p: nat)
      requires Valid() && ShowPager(|Filtered()|) && IsPageButton(Pages(), currentPage, p)
      modifies this
      ensures Valid() && currentPage == p && searchQuery == old(searchQuery)
    {
      currentPage := p;
    }
  }

  /**
   * In a view whose pager is shown, the last-page button is never the one
   * drawn as current (its `currentPage === totalPages` highlight is never
   * used), and the current page is highlighted exactly when it is among the
   * first five.
   */
  lemma LastButtonNeverCurrent(v: TableView)
    requires v.Valid() && ShowPager(|v.Filtered()|)
    ensures ShowLastButton(v.Pages(), v.currentPage) ==> v.currentPage < v.Pages()
    ensures IsPageButton(v.Pages(), v.currentPage, v.currentPage) <==> v.currentPage <= 5
  {
  }

  /** Whatever the handlers did, the page shown holds rows whenever any row matches. */
  lemma ViewShowsRows(v: TableView)
    requires v.Valid() && |v.Filtered()| > 0
    ensures 0 < |v.CurrentRows()|
  {
    PageInRangeNotEmpty(v.Filtered(), v.currentPage);
  }
}

=== FILE: Db.dfy ===
/**
 * src/lib/db.ts: the per-value type inferencer, the CSV ingester, the
 * in-memory dataset store and the column projector.
 */
module Db {
  import opened Text
  import opened Collections
  import opened Types

  // ---------------------------------------------------------------------------
  // inferColumnType
  // ---------------------------------------------------------------------------

  /** Guesses a column's type from one of its values. */
  function InferColumnType(h: Host, v: Value): (t: ColumnType)
    ensures v == Missing || v == Str("") ==> t == StringType
    ensures t == NumberType <==>
      v.Num? || (v.Str? && v.s != "" && !(h.validDate(v.s) && |v.s| > 5) && h.isNumeric(v.s))
    ensures t == BooleanType <==> v.Bool?
    ensures t == DateType <==> v.Str? && h.validDate(v.s) && |v.s| > 5
    ensures t != UnsetType
  {
    match v
    case Missing => StringType
    case Num(_) => NumberType
    case Bool(_) => BooleanType
    case Str(s) =>
      if s == "" then StringType
      else if h.validDate(s) && |s| > 5 then DateType
      else if h.isNumeric(s) then NumberType
      else StringType
  }

  // ---------------------------------------------------------------------------
  // parseCSV: the functions that specify it
  // ---------------------------------------------------------------------------

  /** A trimmed CSV token: a number when it is non-empty and numeric, the token itself otherwise. */
  function CsvField(h: Host, token: string): (v: Value)
    ensures v.Num? <==> token != "" && h.isNumeric(token)
    ensures v.Num? ==> v.n == h.toNumber(token)
    ensures !v.Num? ==> v == Str(token)
  {
    if h.isNumeric(token) && token != "" then Num(h.toNumber(token)) else Str(token)
  }

  /** The converted fields of one data line. */
  function CsvFields(h: Host, values: seq<string>): (vs: seq<Value>)
    ensures |vs| == |values|
  {
    seq(|values|, j requires 0 <= j < |values| => CsvField(h, Trim(values[j])))
  }

  /** The column names: the header line's comma-separated tokens, trimmed. */
  function HeadersOf(headerLine: string): (hs: seq<string>)
    ensures |hs| == Count(headerLine, ',') + 1
    ensures TrimAll(hs) == hs
    ensures forall j :: 0 <= j < |hs| ==> hs[j] == Trim(Split(headerLine, ',')[j])
  {
    TrimAllIdempotent(Split(headerLine, ','));
    TrimAll(Split(headerLine, ','))
  }

  /** A data line yields a row when it is not blank and has one field per header. */
  function CsvKeeps(headers: seq<string>, line: string): (b: bool)
    ensures b <==> Trim(line) != "" && Count(Trim(line), ',') == |headers| - 1
  {
    Trim(line) != "" && |Split(Trim(line), ',')| == |headers|
  }

  /** The row line `i` yields, if any. */
  function CsvLine(h: Host, headers: seq<string>, line: string, i: nat): (r: Option<Row>)
    ensures r.Some? <==> CsvKeeps(headers, line)
  {
    var t := Trim(line);
    if t == "" then None
    else
      var values := Split(t, ',');
      if |values| != |headers| then None
      else Some(Assign(IdRow(i), headers, CsvFields(h, values)))
  }

  /** What every line yields, indexed by line number; the header line yields nothing. */
  function CsvLineResults(h: Host, headers: seq<string>, lines: seq<string>): (opts: seq<Option<Row>>)
    ensures |opts| == |lines|
  {
    seq(|lines|, i requires 0 <= i < |lines| => if i == 0 then None else CsvLine(h, headers, lines[i], i))
  }

  /** `parsedData[0]?.[key]` */
  function FirstValue(data: seq<Row>, key: string): (v: Value)
    ensures data != [] && key in data[0] ==> v == data[0][key]
    ensures data == [] || key !in data[0] ==> v == Missing
  {
    if data == [] then Missing else Lookup(data[0], key)
  }

  /** One column per header, typed from the first kept row. */
  function CsvColumns(h: Host, headers: seq<string>, data: seq<Row>): (cols: seq<Column>)
    ensures |cols| == |headers|
  {
    seq(|headers|, j requires 0 <= j < |headers| =>
      Column(headers[j], ToLabel(headers[j]), InferColumnType(h, FirstValue(data, headers[j]))))
  }

  /** What parseCSV returns for `csvText`. */
  function CsvSpec(h: Host, csvText: string): (r: Ingested)
    ensures '\n' !in csvText ==> r == Ingested([], [])
    ensures '\n' in csvText ==> |r.columns| == Count(Split(csvText, '\n')[0], ',') + 1
  {
    SplitSingleIff(csvText, '\n');
    var lines := Split(csvText, '\n');
    if |lines| < 2 then Ingested([], [])
    else
      var headers := HeadersOf(lines[0]);
      var data := Collect(CsvLineResults(h, headers, lines));
      Ingested(data, CsvColumns(h, headers, data))
  }

  // ---------------------------------------------------------------------------
  // parseCSV
  // ---------------------------------------------------------------------------

  /** `headers.forEach(...)`: fills the row of line `i` field by field. */
  method BuildCsvRow(h: Host, headers: seq<string>, values: seq<string>, i: nat) returns (row: Row)
    requires |values| == |headers|
    ensures row == Assign(IdRow(i), headers, CsvFields(h, values))
  {
    ghost var fields := CsvFields(h, values);
    row := IdRow(i);
    for j := 0 to |headers|
      invariant row == Assign(IdRow(i), headers[..j], fields[..j])
    {
      var v := CsvField(h, Trim(values[j]));
      assert v == fields[j];
      AssignSnoc(IdRow(i), headers, fields, j, row, v);
      row := row[headers[j] := v];
    }
    assert headers[..|headers|] == headers;
    assert fields[..|headers|] == fields;
  }

  /** The loop over the data lines: skips blank and misshapen lines, pushes a row for each other one. */
  method ParseCsvLines(h: Host, headers: seq<string>, lines: seq<string>) returns (data: seq<Row>)
    requires |lines| >= 1
    ensures data == Collect(CsvLineResults(h, headers, lines))
  {
    ghost var opts := CsvLineResults(h, headers, lines);
    data := [];
    assert opts[..1] == [None];
    for i := 1 to |lines|
      invariant data == Collect(opts[..i])
    {
      CollectSnoc(opts, i, data);
      var line := Trim(lines[i]);
      if line == "" {
        continue;
      }
      var values := Split(line, ',');
      if |values| != |headers| {
        continue;
      }
      var row := BuildCsvRow(h, headers, values, i);
      data := data + [row];
    }
    assert opts[..|lines|] == opts;
  }

  /**
   * Splits the text into lines, takes the first as the header, turns each
   * other non-blank line with the right number of fields into a row and
   * derives the columns. Text without a newline yields nothing.
   */
  method ParseCsv(h: Host, csvText: string) returns (data: seq<Row>, columns: seq<Column>)
    ensures Ingested(data, columns) == CsvSpec(h, csvText)
    ensures '\n' !in csvText ==> data == [] && columns == []
  {
    var lines := Split(csvText, '\n');
    SplitSingleIff(csvText, '\n');
    if |lines| < 2 {
      return [], [];
    }
    var headers := HeadersOf(lines[0]);
    data := ParseCsvLines(h, headers, lines);
    columns := CsvColumns(h, headers, data);
  }

  // ---------------------------------------------------------------------------
  // properties of parseCSV
  // ---------------------------------------------------------------------------

  /** Text without a newline has no header-plus-data split: nothing is returned. */
  lemma CsvWithoutNewline(h: Host, csvText: string)
    requires '\n' !in csvText
    ensures CsvSpec(h, csvText) == Ingested([], [])
  {
    SplitSingleIff(csvText, '\n');
  }

  /** With a newline, the text has a header line and the result is built from the lines. */
  lemma CsvSpecUnfold(h: Host, csvText: string)
    requires '\n' in csvText
    ensures var lines := Split(csvText, '\n');
      var headers := HeadersOf(lines[0]);
      var data := Collect(CsvLineResults(h, headers, lines));
      |lines| >= 2 && CsvSpec(h, csvText) == Ingested(data, CsvColumns(h, headers, data))
  {
    SplitSingleIff(csvText, '\n');
  }

  /**
   * A header line followed by a newline and nothing else is two lines, not
   * one: the result has no rows but one string-typed column per header.
   */
  lemma CsvHeaderOnly(h: Host, headerLine: string)
    requires '\n' !in headerLine
    ensures var headers := HeadersOf(headerLine);
      var r := CsvSpec(h, headerLine + "\n");
      && r.data == []
      && |r.columns| == |headers|
      && forall j :: 0 <= j < |headers| ==>
           r.columns[j] == Column(headers[j], ToLabel(headers[j]), StringType)
  {
    SplitNoSeparator("", '\n');
    SplitAfterPiece(headerLine, '\n', "");
    assert headerLine + "\n" == headerLine + ['\n'] + "";
    var lines := Split(headerLine + "\n", '\n');
    assert lines == [headerLine, ""];
    var opts := CsvLineResults(h, HeadersOf(headerLine), lines);
    assert opts == [None, None];
  }

  /** Row k comes from a kept data line and is built from that line's fields. */
  lemma CsvKeptRow(h: Host, headers: seq<string>, lines: seq<string>, k: nat)
    requires k < |Collect(CsvLineResults(h, headers, lines))|
    ensures var opts := CsvLineResults(h, headers, lines);
      var i := KeptIndices(opts)[k];
      && 1 <= i < |lines|
      && CsvKeeps(headers, lines[i])
      && |Split(Trim(lines[i]), ',')| == |headers|
      && Collect(opts)[k] == Assign(IdRow(i), headers, CsvFields(h, Split(Trim(lines[i]), ',')))
  {
    var opts := CsvLineResults(h, headers, lines);
    var i := KeptIndices(opts)[k];
    var row := Collect(opts)[k];
    assert opts[i] == Some(row);
    assert i != 0;
    assert CsvLine(h, headers, lines[i], i) == Some(row);
  }

  /**
   * The columns: exactly one per header, in header order, named by the
   * header, labelled by the label rule, and typed from the first kept row
   * only (every column is a string column when no row was kept).
   */
  lemma CsvColumnsSpec(h: Host, headers: seq<string>, lines: seq<string>, j: nat)
    requires j < |headers|
    ensures var data := Collect(CsvLineResults(h, headers, lines));
      var cols := CsvColumns(h, headers, data);
      && |cols| == |headers|
      && cols[j].name == headers[j]
      && cols[j].labelText == ToLabel(headers[j])
      && (data == [] ==> cols[j].ctype == StringType)
      && (data != [] ==> headers[j] in data[0] && cols[j].ctype == InferColumnType(h, data[0][headers[j]]))
  {
    var data := Collect(CsvLineResults(h, headers, lines));
    if data != [] {
      CsvKeptRow(h, headers, lines, 0);
    }
  }

  /** Column `j` is typed from the first row; that row's value under the header is a number or a string. */
  lemma CsvFirstValueNotBoolean(h: Host, headers: seq<string>, lines: seq<string>, j: nat)
    requires j < |headers|
    ensures FirstValue(Collect(CsvLineResults(h, headers, lines)), headers[j]).Bool? == false
  {
    var opts := CsvLineResults(h, headers, lines);
    var data := Collect(opts);
    if data != [] {
      CsvKeptRow(h, headers, lines, 0);
      var i := KeptIndices(opts)[0];
      var values := Split(Trim(lines[i]), ',');
      var last := LastIndexOf(headers, headers[j]);
      AssignAt(IdRow(i), headers, CsvFields(h, values), last);
    }
  }

  /** The last position of `x` in `s`: no later position holds `x`. */
  function LastIndexOf(s: seq<string>, x: string): (k: nat)
    requires x in s
    ensures k < |s| && s[k] == x
    ensures forall l :: k < l < |s| ==> s[l] != x
  {
    if s[|s| - 1] == x then |s| - 1 else LastIndexOf(s[..|s| - 1], x)
  }

  /** A CSV column is never typed boolean: cells are only numbers or strings. */
  lemma CsvColumnsNeverBoolean(h: Host, csvText: string)
    ensures forall c :: c in CsvSpec(h, csvText).columns ==> c.ctype != BooleanType
  {
    var lines := Split(csvText, '\n');
    if |lines| >= 2 {
      var headers := HeadersOf(lines[0]);
      var data := Collect(CsvLineResults(h, headers, lines));
      var cols := CsvColumns(h, headers, data);
      forall j | 0 <= j < |cols| ensures cols[j].ctype != BooleanType {
        CsvFirstValueNotBoolean(h, headers, lines, j);
      }
    }
  }

  /**
   * The kept rows: row k comes from line `KeptIndices(...)[k]`, those line
   * numbers increase with k, each is a data line (not the header) that is not
   * blank and has one field per header, and every such line is kept.
   */
  lemma CsvKeptLines(h: Host, headers: seq<string>, lines: seq<string>)
    ensures var opts := CsvLineResults(h, headers, lines);
      var ix := KeptIndices(opts);
      && |Collect(opts)| == |ix|
      && (forall k :: 0 <= k < |ix| ==> 1 <= ix[k] < |lines| && CsvKeeps(headers, lines[ix[k]]))
      && (forall k, l :: 0 <= k < l < |ix| ==> ix[k] < ix[l])
      && (forall i :: 1 <= i < |lines| && CsvKeeps(headers, lines[i]) ==> i in ix)
  {
    var opts := CsvLineResults(h, headers, lines);
    var ix := KeptIndices(opts);
    forall k | 0 <= k < |ix| ensures 1 <= ix[k] < |lines| && CsvKeeps(headers, lines[ix[k]]) {
      assert opts[ix[k]].Some?;
    }
    forall i | 1 <= i < |lines| && CsvKeeps(headers, lines[i]) ensures i in ix {
      assert opts[i].Some?;
    }
  }

  /**
   * The content of a row built from line i: it has an `id` key and one key
   * per header; the id is `row-<i>` unless a header is itself named `id`; the
   * value under a header (taken from the last field with that header) is the
   * converted trimmed field.
   */
  lemma CsvRowContent(h: Host, headers: seq<string>, values: seq<string>, i: nat)
    requires |values| == |headers|
    ensures Assign(IdRow(i), headers, CsvFields(h, values)).Keys == {"id"} + ToSet(headers)
    ensures "id" !in headers ==> Assign(IdRow(i), headers, CsvFields(h, values))["id"] == Str(RowId(i))
    ensures forall j :: LastOccurrence(headers, j) ==>
      Assign(IdRow(i), headers, CsvFields(h, values))[headers[j]] == CsvField(h, Trim(values[j]))
  {
    var fields := CsvFields(h, values);
    AssignKeys(IdRow(i), headers, fields);
    assert IdRow(i).Keys == {"id"};
    if "id" !in headers {
      AssignKeeps(IdRow(i), headers, fields, "id");
    }
    CsvRowFields(h, headers, values, i);
  }

  /** The value under the last occurrence of each header is the converted trimmed field. */
  lemma CsvRowFields(h: Host, headers: seq<string>, values: seq<string>, i: nat)
    requires |values| == |headers|
    ensures forall j :: LastOccurrence(headers, j) ==>
      Assign(IdRow(i), headers, CsvFields(h, values))[headers[j]] == CsvField(h, Trim(values[j]))
  {
    var fields := CsvFields(h, values);
    forall j | LastOccurrence(headers, j)
      ensures Assign(IdRow(i), headers, fields)[headers[j]] == CsvField(h, Trim(values[j]))
    {
      AssignAt(IdRow(i), headers, fields, j);
      assert fields[j] == CsvField(h, Trim(values[j]));
    }
  }

  /**
   * Kept row k, from line i: an `id` key and one key per header, and under
   * each header (its last occurrence) the converted trimmed field of line i.
   */
  lemma CsvRowAt(h: Host, headers: seq<string>, lines: seq<string>, k: nat)
    requires k < |Collect(CsvLineResults(h, headers, lines))|
    ensures var opts := CsvLineResults(h, headers, lines);
      var i := KeptIndices(opts)[k];
      var values := Split(Trim(lines[i]), ',');
      var row := Collect(opts)[k];
      && |values| == |headers|
      && row.Keys == {"id"} + ToSet(headers)
      && (forall j :: LastOccurrence(headers, j)
            ==> row[headers[j]] == CsvField(h, Trim(values[j])))
  {
    var opts := CsvLineResults(h, headers, lines);
    var i := KeptIndices(opts)[k];
    CsvKeptRow(h, headers, lines, k);
    CsvRowContent(h, headers, Split(Trim(lines[i]), ','), i);
  }

  /** Unless a header is named `id`, kept row k has the id `row-<i>` of the line i it came from. */
  lemma CsvRowId(h: Host, headers: seq<string>, lines: seq<string>, k: nat)
    requires "id" !in headers
    requires k < |Collect(CsvLineResults(h, headers, lines))|
    ensures var opts := CsvLineResults(h, headers, lines);
      "id" in Collect(opts)[k] && Collect(opts)[k]["id"] == Str(RowId(KeptIndices(opts)[k]))
  {
    var opts := CsvLineResults(h, headers, lines);
    var i := KeptIndices(opts)[k];
    CsvKeptRow(h, headers, lines, k);
    AssignKeeps(IdRow(i), headers, CsvFields(h, Split(Trim(lines[i]), ',')), "id");
  }

  /** Unless a header is named `id`, the kept rows carry pairwise distinct ids. */
  lemma CsvRowIdsDistinct(h: Host, headers: seq<string>, lines: seq<string>)
    requires "id" !in headers
    ensures var data := Collect(CsvLineResults(h, headers, lines));
      forall k, l :: 0 <= k < l < |data| ==> Lookup(data[k], "id") != Lookup(data[l], "id")
  {
    var opts := CsvLineResults(h, headers, lines);
    var data, ix := Collect(opts), KeptIndices(opts);
    forall k | 0 <= k < |data| ensures "id" in data[k] && data[k]["id"] == Str(RowId(ix[k])) {
      CsvRowId(h, headers, lines, k);
    }
    RowIdsDistinct(data, ix);
  }

  // ---------------------------------------------------------------------------
  // the in-memory store
  // ---------------------------------------------------------------------------

  /** The id the store gives its n-th dataset: `dataset-${n}`. */
  function DatasetId(n: nat): (s: string)
    ensures |s| > 8 && s[..8] == "dataset-" && s[8..] == NatToString(n)
    ensures ParseNat(s[8..]) == n
  {
    ParseNatToString(n);
    var s := "dataset-" + NatToString(n);
    assert s[8..] == NatToString(n);
    s
  }

  /** `datasets.find(d => d.id === id)` */
  function FindDataset(ds: seq<DataSet>, id: string): (r: Option<DataSet>)
    ensures r.None? <==> forall i :: 0 <= i < |ds| ==> ds[i].id != id
    ensures r.Some? ==> exists i :: FirstWithId(ds, id, i) && ds[i] == r.value
  {
    if ds == [] then None
    else if ds[0].id == id then (assert FirstWithId(ds, id, 0); Some(ds[0]))
    else
      var r := FindDataset(ds[1..], id);
      assert forall i :: 1 <= i < |ds| ==> ds[i] == ds[1..][i - 1];
      assert forall i :: FirstWithId(ds[1..], id, i) ==> FirstWithId(ds, id, i + 1);
      r
  }

  /** Position `i` holds the first dataset whose id is `id`. */
  predicate FirstWithId(ds: seq<DataSet>, id: string, i: int) {
    0 <= i < |ds| && ds[i].id == id && forall j :: 0 <= j < i ==> ds[j].id != id
  }

  /** `dataset.data.map(item => ({ x: item[xColumn], y: item[yColumn] }))` */
  function Project(data: seq<Row>, xColumn: string, yColumn: string): (pts: seq<Point>)
    ensures |pts| == |data|
  {
    seq(|data|, i requires 0 <= i < |data| => Point(Lookup(data[i], xColumn), Lookup(data[i], yColumn)))
  }

  /** The module-level `datasets` array and `currentId` counter. */
  class Store {
    var datasets: seq<DataSet>
    var currentId: nat

    /** The counter has counted every dataset, and the n-th one is `dataset-<n>`. */
    ghost predicate Valid()
      reads this
    {
      && currentId == |datasets|
      && forall i :: 0 <= i < |datasets| ==> datasets[i].id == DatasetId(i + 1)
    }

    constructor ()
      ensures Valid() && datasets == [] && currentId == 0
    {
      datasets := [];
      currentId := 0;
    }

    /** Bumps the counter and appends one dataset carrying the new id. */
    method AddDataset(name: string, data: seq<Row>, columns: seq<Column>, now: int) returns (d: DataSet)
      requires Valid()
      modifies this
      ensures Valid()
      ensures currentId == old(currentId) + 1
      ensures d == DataSet(DatasetId(currentId), name, columns, data, now)
      ensures datasets == old(datasets) + [d]
    {
      currentId := currentId + 1;
      d := DataSet(DatasetId(currentId), name, columns, data, now);
      datasets := datasets + [d];
    }

    /** All datasets, oldest first; their ids are pairwise distinct. */
    method GetDatasets() returns (all: seq<DataSet>)
      requires Valid()
      ensures all == datasets
      ensures forall i, j :: 0 <= i < j < |all| ==> all[i].id != all[j].id
    {
      all := datasets;
      StoreIdsDistinct(this);
    }

    /** The dataset with the given id, if the store holds one. */
    function GetDatasetById(id: string): (r: Option<DataSet>)
      reads this
      ensures r.None? <==> forall i :: 0 <= i < |datasets| ==> datasets[i].id != id
      ensures r.Some? ==> r.value in datasets && r.value.id == id
    {
      FindDataset(datasets, id)
    }

    /** The columns of the dataset with the given id, or none when there is no such dataset. */
    function GetColumns(datasetId: string): (cols: seq<Column>)
      reads this
      ensures (forall i :: 0 <= i < |datasets| ==> datasets[i].id != datasetId) ==> cols == []
      ensures GetDatasetById(datasetId).Some? ==> cols == GetDatasetById(datasetId).value.columns
    {
      match GetDatasetById(datasetId)
      case None => []
      case Some(d) => d.columns
    }

    /**
     * One `{x, y}` point per row of the dataset with the given id, in row
     * order, or no points when there is no such dataset.
     */
    function GetDataForColumns(datasetId: string, xColumn: string, yColumn: string): (pts: seq<Point>)
      reads this
      ensures (forall i :: 0 <= i < |datasets| ==> datasets[i].id != datasetId) ==> pts == []
      ensures GetDatasetById(datasetId).Some? ==>
        var data := GetDatasetById(datasetId).value.data;
        && |pts| == |data|
        && forall i :: 0 <= i < |data| ==> pts[i] == Point(Lookup(data[i], xColumn), Lookup(data[i], yColumn))
    {
      match GetDatasetById(datasetId)
      case None => []
      case Some(d) => Project(d.data, xColumn, yColumn)
    }

    /** Empties the store and resets the counter. */
    method ClearData()
      modifies this
      ensures Valid() && datasets == [] && currentId == 0
    {
      datasets := [];
      currentId := 0;
    }
  }

  /** The ids of the datasets in a store are pairwise distinct. */
  lemma StoreIdsDistinct(s: Store)
    requires s.Valid()
    ensures forall i, j :: 0 <= i < j < |s.datasets| ==> s.datasets[i].id != s.datasets[j].id
  {
    forall i, j | 0 <= i < j < |s.datasets| ensures s.datasets[i].id != s.datasets[j].id {
      PrefixedCounterInjective("dataset-", i + 1, j + 1);
    }
  }

  /** The n-th dataset added since the last clear is found by its id `dataset-<n>`. */
  lemma StoreFindsById(s: Store, n: nat)
    requires s.Valid() && 1 <= n <= |s.datasets|
    ensures s.GetDatasetById(DatasetId(n)) == Some(s.datasets[n - 1])
  {
    StoreIdsDistinct(s);
    var r := s.GetDatasetById(DatasetId(n));
    assert s.datasets[n - 1].id == DatasetId(n);
    var i :| 0 <= i < |s.datasets| && s.datasets[i] == r.value && s.datasets[i].id == DatasetId(n);
    PrefixedCounterInjective("dataset-", i + 1, n);
  }
}

=== FILE: Graph.dfy ===
/**
 * src/components/Graph.tsx: choosing the numeric columns, auto-selecting the
 * axes, the guard on generating a chart, the ten-slice pie window and its
 * colour palette, the axis labels, and the options of the two axis pickers.
 */
module Graph {
  import opened Text
  import opened Collections
  import opened Types
  import Db

  // ---------------------------------------------------------------------------
  // columns and axes
  // ---------------------------------------------------------------------------

  predicate IsNumberColumn(c: Column) {
    c.ctype == NumberType
  }

  /** `columns.filter(col => col.type === 'number')` */
  function NumericColumns(columns: seq<Column>): (r: seq<Column>)
    ensures |r| <= |columns|
    ensures forall k :: 0 <= k < |r| ==> r[k].ctype == NumberType
  {
    Filter(columns, IsNumberColumn)
  }

  /**
   * The numeric columns are the subsequence of the columns typed number, in
   * their original order, with none left out.
   */
  lemma NumericColumnsSpec(columns: seq<Column>)
    ensures var r, ix := NumericColumns(columns), KeptIndices(Tag(columns, IsNumberColumn));
      && |r| == |ix| <= |columns|
      && (forall k :: 0 <= k < |r| ==> ix[k] < |columns| && r[k] == columns[ix[k]] && r[k].ctype == NumberType)
      && (forall k, l :: 0 <= k < l < |ix| ==> ix[k] < ix[l])
      && (forall i :: 0 <= i < |columns| && columns[i].ctype == NumberType ==> i in ix)
  {
    FilterSpec(columns, IsNumberColumn);
  }

  /** The first column carrying `name`, if any: `columns.find(col => col.name === name)`. */
  function FindColumn(columns: seq<Column>, name: string): (r: Option<Column>)
    ensures r.None? <==> forall i :: 0 <= i < |columns| ==> columns[i].name != name
    ensures r.Some? ==> exists i :: FirstNamed(columns, name, i) && columns[i] == r.value
  {
    if columns == [] then None
    else if columns[0].name == name then (assert FirstNamed(columns, name, 0); Some(columns[0]))
    else
      var rest := FindColumn(columns[1..], name);
      assert forall i :: 1 <= i < |columns| ==> columns[i] == columns[1..][i - 1];
      assert forall i :: FirstNamed(columns[1..], name, i) ==> FirstNamed(columns, name, i + 1);
      rest
  }

  /** Position `i` holds the first column called `name`. */
  predicate FirstNamed(columns: seq<Column>, name: string, i: int) {
    0 <= i < |columns| && columns[i].name == name && forall j :: 0 <= j < i ==> columns[j].name != name
  }

  /** `columns.find(...)?.label || name`: the label of the first column so named, or the name itself. */
  function AxisLabel(columns: seq<Column>, name: string): (l: string)
    ensures FindColumn(columns, name).None? ==> l == name
    ensures FindColumn(columns, name).Some? && FindColumn(columns, name).value.labelText != "" ==>
      l == FindColumn(columns, name).value.labelText
  {
    match FindColumn(columns, name)
    case Some(c) => if c.labelText != "" then c.labelText else name
    case None => name
  }

  /**
   * For columns built by the ingesters, whose labels are derived from their
   * names, an axis is labelled with the derived label of its name when such
   * a column exists and with the bare name otherwise.
   */
  lemma AxisLabelOfDerivedColumns(columns: seq<Column>, name: string)
    requires forall i :: 0 <= i < |columns| ==> columns[i].labelText == ToLabel(columns[i].name)
    ensures AxisLabel(columns, name)
         == if exists i :: 0 <= i < |columns| && columns[i].name == name then ToLabel(name) else name
  {
    match FindColumn(columns, name)
    case Some(c) =>
      var i :| 0 <= i < |columns| && columns[i] == c && c.name == name;
      assert c.labelText == ToLabel(name);
      if c.labelText == "" {
        assert |name| == 0;
      }
    case None =>
  }

  /** The Y-axis picker lists the numeric columns when there are any, all columns otherwise. */
  function YAxisOptions(columns: seq<Column>): (opts: seq<Column>)
    ensures NumericColumns(columns) == [] ==> opts == columns
    ensures NumericColumns(columns) != [] ==> opts == NumericColumns(columns)
  {
    var numeric := NumericColumns(columns);
    if |numeric| > 0 then numeric else columns
  }

  /** Every Y-axis option is a column, and a numeric one whenever some column is numeric. */
  lemma YAxisOptionsAreColumns(columns: seq<Column>, c: Column)
    requires c in YAxisOptions(columns)
    ensures c in columns
    ensures (exists i :: 0 <= i < |columns| && columns[i].ctype == NumberType) ==> c.ctype == NumberType
  {
    FilterMembers(columns, IsNumberColumn, c);
    if exists i :: 0 <= i < |columns| && columns[i].ctype == NumberType {
      var i :| 0 <= i < |columns| && columns[i].ctype == NumberType;
      FilterMembers(columns, IsNumberColumn, columns[i]);
    }
  }

  /** `column.name || 'default'`: the value a picker option selects. */
  function OptionValue(c: Column): (v: string)
    ensures v != ""
    ensures c.name != "" ==> v == c.name
    ensures c.name == "" ==> v == "default"
  {
    if c.name != "" then c.name else "default"
  }

  // ---------------------------------------------------------------------------
  // the pie chart
  // ---------------------------------------------------------------------------

  /** One slice: `{ name: item.x, value: item.y }`. */
  datatype PieSlice = PieSlice(name: Value, value: Value)

  /** `chartData.slice(0, 10).map(...)`: the first ten points as slices, in order. */
  function PieData(chartData: seq<Point>): (slices: seq<PieSlice>)
    ensures |slices| == Min(10, |chartData|)
    ensures forall i :: 0 <= i < |slices| ==>
      slices[i].name == chartData[i].x && slices[i].value == chartData[i].y
  {
    var window := Slice(chartData, 0, 10);
    seq(|window|, i requires 0 <= i < |window| => PieSlice(window[i].x, window[i].y))
  }

  /** `COLORS`: the ten slice colours. */
  const Colors: seq<string> := [
    "#6366f1", "#8b5cf6", "#ec4899", "#f43f5e", "#f59e0b",
    "#10b981", "#06b6d4", "#3b82f6", "#f97316", "#0ea5e9"
  ]

  /** `COLORS[index % COLORS.length]`: always one of the palette's colours, cycling every ten slices. */
  function SliceColor(index: nat): (c: string)
    ensures c in Colors
    ensures c == Colors[index % 10]
    ensures index >= 10 ==> c == SliceColor(index - 10)
  {
    Colors[index % |Colors|]
  }

  /** The palette has no repeated colour. */
  lemma ColorsDistinct()
    ensures |Colors| == 10 && Distinct(Colors)
  {
  }

  /** The pie never has more slices than colours, so its slices all get different colours. */
  lemma PieColorsDistinct(chartData: seq<Point>, i: nat, j: nat)
    requires i < j < |PieData(chartData)|
    ensures SliceColor(i) != SliceColor(j)
  {
    ColorsDistinct();
    assert i % 10 == i && j % 10 == j;
  }

  // ---------------------------------------------------------------------------
  // the component's state
  // ---------------------------------------------------------------------------

  datatype ChartType = LineChart | BarChart | ScatterChart | PieChart

  /** The chart panel for one dataset: the chosen chart type, the two axes and the points drawn. */
  class GraphView {
    const datasetId: string
    const columns: seq<Column>
    var chartType: ChartType
    var xColumn: string
    var yColumn: string
    var chartData: seq<Point>

    constructor (datasetId: string, columns: seq<Column>)
      ensures this.datasetId == datasetId && this.columns == columns
      ensures chartType == LineChart && xColumn == "" && yColumn == "" && chartData == []
    {
      this.datasetId := datasetId;
      this.columns := columns;
      chartType := LineChart;
      xColumn := "";
      yColumn := "";
      chartData := [];
    }

    /**
     * The effect run when the columns arrive: with two or more numeric
     * columns and no axis chosen yet, X takes the first numeric column and Y
     * the second; otherwise nothing changes.
     */
    method AutoSelect()
      modifies this
      ensures var numeric := NumericColumns(columns);
        if |numeric| >= 2 && old(xColumn) == "" && old(yColumn) == "" then
          xColumn == numeric[0].name && yColumn == numeric[1].name
        else
          xColumn == old(xColumn) && yColumn == old(yColumn)
      ensures chartType == old(chartType) && chartData == old(chartData)
    {
      var numeric := NumericColumns(columns);
      if |numeric| >= 2 && xColumn == "" && yColumn == "" {
        xColumn := numeric[0].name;
        yColumn := numeric[1].name;
      }
    }

    /** Picking an X axis. */
    method SelectX(name: string)
      modifies this
      ensures xColumn == name && yColumn == old(yColumn)
      ensures chartType == old(chartType) && chartData == old(chartData)
    {
      xColumn := name;
    }

    /** Picking a Y axis. */
    method SelectY(name: string)
      modifies this
      ensures yColumn == name && xColumn == old(xColumn)
      ensures chartType == old(chartType) && chartData == old(chartData)
    {
      yColumn := name;
    }

    /** Picking a chart type. */
    method SelectChartType(t: ChartType)
      modifies this
      ensures chartType == t && xColumn == old(xColumn) && yColumn == old(yColumn) && chartData == old(chartData)
    {
      chartType := t;
    }

    /**
     * The generate action: refused while either axis is empty, in which case
     * the points drawn stay as they were; otherwise the points become the
     * store's projection of the dataset on the two axes.
     */
    method GenerateGraph(store: Db.Store) returns (ok: bool)
      modifies this
      ensures ok <==> xColumn != "" && yColumn != ""
      ensures ok ==> chartData == store.GetDataForColumns(datasetId, xColumn, yColumn)
      ensures !ok ==> chartData == old(chartData)
      ensures xColumn == old(xColumn) && yColumn == old(yColumn) && chartType == old(chartType)
    {
      if xColumn == "" || yColumn == "" {
        return false;
      }
      chartData := store.GetDataForColumns(datasetId, xColumn, yColumn);
      ok := true;
    }
  }

  /**
   * After the auto-selection on columns with at least two numeric ones and
   * no axis chosen, both axes are set, each to a numeric column, the two
   * columns being different entries of the list.
   */
  lemma AutoSelectPicksNumeric(columns: seq<Column>)
    requires |NumericColumns(columns)| >= 2
    ensures var numeric := NumericColumns(columns);
      var ix := KeptIndices(Tag(columns, IsNumberColumn));
      && ix[0] < ix[1] < |columns|
      && numeric[0] == columns[ix[0]] && numeric[1] == columns[ix[1]]
      && numeric[0].ctype == NumberType && numeric[1].ctype == NumberType
      && (forall i :: 0 <= i < ix[1] && i != ix[0] ==> columns[i].ctype != NumberType)
  {
    NumericColumnsSpec(columns);
  }
}

=== FILE: ManualInput.dfy ===
/**
 * src/components/ManualDataInput.tsx: the manual row builder, the checks run
 * on submit, and the editor that keeps the column list and the form's two
 * parallel arrays of names and types.
 */
module ManualInput {
  import opened Text
  import opened Collections
  import opened Types
  import Db

  // ---------------------------------------------------------------------------
  // parseManualData: the functions that specify it
  // ---------------------------------------------------------------------------

  /**
   * A trimmed field converted by the type declared for its column. A column
   * with no declared type (`UnsetType`) keeps the token, as a text column does.
   */
  function ManualField(h: Host, t: ColumnType, token: string): (v: Value)
    ensures v.Num? <==> t == NumberType && h.isNumeric(token)
    ensures v.Num? ==> v.n == h.toNumber(token)
    ensures v.Bool? <==> t == BooleanType
    ensures v.Bool? ==> (v.b <==> ToLower(token) == "true")
    ensures !v.Num? && !v.Bool? ==> v == Str(token)
    ensures t == UnsetType ==> v == Str(token)
  {
    if t == NumberType && h.isNumeric(token) then Num(h.toNumber(token))
    else if t == BooleanType then Bool(ToLower(token) == "true")
    // a date is stored as typed, whether or not it parses
    else Str(token)
  }

  /**
   * The converted fields of one line: field j by `columnTypes[j]`, which is
   * `undefined` when the form holds fewer types than fields.
   */
  function ManualFields(h: Host, types: seq<ColumnType>, values: seq<string>): (vs: seq<Value>)
    ensures |vs| == |values|
    ensures forall j :: |types| <= j < |values| ==> vs[j] == Str(values[j])
  {
    seq(|values|, j requires 0 <= j < |values| => ManualField(h, TypeAt(types, j), values[j]))
  }

  /** The row line `rowIndex` yields, if any: one is built exactly when the field count is right. */
  function ManualLine(h: Host, names: seq<string>, types: seq<ColumnType>, line: string, rowIndex: nat)
    : (r: Option<Row>)
    ensures r.Some? <==> |Split(line, ',')| == |names|
  {
    var values := TrimAll(Split(line, ','));
    if |values| != |names| then None
    else Some(Assign(IdRow(rowIndex), names, ManualFields(h, types, values)))
  }

  /** What every line yields, indexed by line number from 0. */
  function ManualLineResults(h: Host, names: seq<string>, types: seq<ColumnType>, lines: seq<string>)
    : (opts: seq<Option<Row>>)
    ensures |opts| == |lines|
  {
    seq(|lines|, i requires 0 <= i < |lines| => ManualLine(h, names, types, lines[i], i))
  }

  /** The lines of the block: `rawData.trim().split('\n')`. */
  function ManualLines(rawData: string): (ls: seq<string>)
    ensures |ls| >= 1 && Join(ls, '\n') == Trim(rawData)
    ensures forall l :: l in ls ==> '\n' !in l
  {
    JoinSplit(Trim(rawData), '\n');
    Split(Trim(rawData), '\n')
  }

  /**
   * `columnNames.map(...)`: one column per declared name, with its derived
   * label and its declared type, or no type past the end of the types.
   * Types beyond the names are ignored.
   */
  function DeclaredColumns(names: seq<string>, types: seq<ColumnType>): (cols: seq<Column>)
    ensures |cols| == |names|
    ensures forall i :: 0 <= i < |cols| ==> cols[i].name == names[i] && cols[i].labelText == ToLabel(names[i])
    ensures forall i :: 0 <= i < |cols| && i < |types| ==> cols[i].ctype == types[i]
    ensures forall i :: |types| <= i < |cols| ==> cols[i].ctype == UnsetType
  {
    seq(|names|, i requires 0 <= i < |names| => Column(names[i], ToLabel(names[i]), TypeAt(types, i)))
  }

  /** What parseManualData returns. */
  function ManualSpec(h: Host, rawData: string, names: seq<string>, types: seq<ColumnType>): (r: Ingested)
    ensures |r.data| <= Count(Trim(rawData), '\n') + 1
    ensures |r.columns| == |names|
    ensures forall i :: 0 <= i < |names| ==> r.columns[i].name == names[i]
    ensures forall i :: 0 <= i < |names| && i < |types| ==> r.columns[i].ctype == types[i]
    ensures forall i :: |types| <= i < |names| ==> r.columns[i].ctype == UnsetType
  {
    Ingested(Collect(ManualLineResults(h, names, types, ManualLines(rawData))), DeclaredColumns(names, types))
  }

  // ---------------------------------------------------------------------------
  // parseManualData
  // ---------------------------------------------------------------------------

  /** `columnNames.forEach(...)`: fills the row of line `rowIndex` field by field. */
  method BuildManualRow(h: Host, names: seq<string>, types: seq<ColumnType>, values: seq<string>, rowIndex: nat)
    returns (row: Row)
    requires |names| == |values|
    ensures row == Assign(IdRow(rowIndex), names, ManualFields(h, types, values))
  {
    ghost var fields := ManualFields(h, types, values);
    row := IdRow(rowIndex);
    for j := 0 to |names|
      invariant row == Assign(IdRow(rowIndex), names[..j], fields[..j])
    {
      var v := ManualField(h, TypeAt(types, j), values[j]);
      AssignSnoc(IdRow(rowIndex), names, fields, j, row, v);
      row := row[names[j] := v];
    }
    assert names[..|names|] == names;
    assert fields[..|names|] == fields;
  }

  /** One line of the loop body: split on commas, trim, check the count, build the row. */
  method ParseManualLine(h: Host, names: seq<string>, types: seq<ColumnType>, rows: seq<string>, rowIndex: nat)
    returns (r: Option<Row>)
    requires rowIndex < |rows|
    ensures r == ManualLineResults(h, names, types, rows)[rowIndex]
  {
    var values := TrimAll(Split(rows[rowIndex], ','));
    if |values| != |names| {
      return None;
    }
    var row := BuildManualRow(h, names, types, values, rowIndex);
    r := Some(row);
  }

  /** The loop over the lines, keeping the rows of the lines that parse. */
  method ParseManualLines(h: Host, names: seq<string>, types: seq<ColumnType>, rows: seq<string>)
    returns (data: seq<Row>)
    ensures data == Collect(ManualLineResults(h, names, types, rows))
  {
    ghost var opts := ManualLineResults(h, names, types, rows);
    data := [];
    for rowIndex := 0 to |rows|
      invariant data == Collect(opts[..rowIndex])
    {
      var r := ParseManualLine(h, names, types, rows, rowIndex);
      CollectSnoc(opts, rowIndex, data);
      if r.None? {
        continue;
      }
      data := data + [r.value];
    }
    assert opts[..|rows|] == opts;
  }

  /**
   * Builds one row per line of the trimmed block whose comma-separated field
   * count matches the declared columns; other lines are skipped and do not
   * stop the later ones.
   */
  method ParseManualData(h: Host, rawData: string, names: seq<string>, types: seq<ColumnType>)
    returns (data: seq<Row>, columns: seq<Column>)
    ensures Ingested(data, columns) == ManualSpec(h, rawData, names, types)
  {
    var rows := Split(Trim(rawData), '\n');
    data := ParseManualLines(h, names, types, rows);
    columns := DeclaredColumns(names, types);
  }

  // ---------------------------------------------------------------------------
  // properties of parseManualData
  // ---------------------------------------------------------------------------

  /**
   * The kept rows: row k comes from line `KeptIndices(...)[k]` (counting every
   * line from 0, rejected ones included), line numbers increase with k, and a
   * line is kept exactly when its field count equals the number of names.
   */
  lemma ManualKeptLines(h: Host, names: seq<string>, types: seq<ColumnType>, lines: seq<string>)
    ensures var opts := ManualLineResults(h, names, types, lines);
      var ix := KeptIndices(opts);
      && |Collect(opts)| == |ix|
      && (forall k :: 0 <= k < |ix| ==> ix[k] < |lines| && |Split(lines[ix[k]], ',')| == |names|)
      && (forall k, l :: 0 <= k < l < |ix| ==> ix[k] < ix[l])
      && (forall i :: 0 <= i < |lines| && |Split(lines[i], ',')| == |names| ==> i in ix)
  {
    var opts := ManualLineResults(h, names, types, lines);
    var ix := KeptIndices(opts);
    forall k | 0 <= k < |ix| ensures ix[k] < |lines| && |Split(lines[ix[k]], ',')| == |names| {
      assert opts[ix[k]].Some?;
    }
    forall i | 0 <= i < |lines| && |Split(lines[i], ',')| == |names| ensures i in ix {
      assert opts[i].Some?;
    }
  }

  /** Row k comes from kept line i and is built from that line's trimmed fields. */
  lemma ManualKeptRow(h: Host, names: seq<string>, types: seq<ColumnType>, lines: seq<string>, k: nat)
    requires k < |Collect(ManualLineResults(h, names, types, lines))|
    ensures var opts := ManualLineResults(h, names, types, lines);
      var i := KeptIndices(opts)[k];
      && i < |lines|
      && |Split(lines[i], ',')| == |names|
      && Collect(opts)[k] == Assign(IdRow(i), names, ManualFields(h, types, TrimAll(Split(lines[i], ','))))
  {
    var opts := ManualLineResults(h, names, types, lines);
    var i := KeptIndices(opts)[k];
    assert opts[i] == Some(Collect(opts)[k]);
  }

  /**
   * The row built from line i: its id is `row-<i>` unless a name is `id`,
   * and under each distinct declared name it holds that line's trimmed field
   * converted by the column's declared type.
   */
  lemma ManualRowContent(h: Host, names: seq<string>, types: seq<ColumnType>, values: seq<string>, i: nat)
    requires |names| == |values|
    requires Distinct(names)
    ensures var row := Assign(IdRow(i), names, ManualFields(h, types, TrimAll(values)));
      && ("id" !in names ==> row["id"] == Str(RowId(i)))
      && (forall j :: 0 <= j < |names| ==> row[names[j]] == ManualField(h, TypeAt(types, j), Trim(values[j])))
      && (forall j :: |types| <= j < |names| ==> row[names[j]] == Str(Trim(values[j])))
  {
    var fields := ManualFields(h, types, TrimAll(values));
    var row := Assign(IdRow(i), names, fields);
    if "id" !in names {
      AssignKeeps(IdRow(i), names, fields, "id");
    }
    forall j | 0 <= j < |names| ensures row[names[j]] == ManualField(h, TypeAt(types, j), Trim(values[j])) {
      AssignAt(IdRow(i), names, fields, j);
      assert fields[j] == ManualField(h, TypeAt(types, j), Trim(values[j]));
    }
  }

  /**
   * Kept row k, from line i: its id is `row-<i>` unless a name is `id`, and
   * under each distinct declared name it holds the field of line i converted
   * by that column's declared type.
   */
  lemma ManualRowAt(h: Host, names: seq<string>, types: seq<ColumnType>, lines: seq<string>, k: nat)
    requires Distinct(names)
    requires k < |Collect(ManualLineResults(h, names, types, lines))|
    ensures var opts := ManualLineResults(h, names, types, lines);
      var i := KeptIndices(opts)[k];
      var values := Split(lines[i], ',');
      var row := Collect(opts)[k];
      && |values| == |names|
      && ("id" !in names ==> row["id"] == Str(RowId(i)))
      && (forall j :: 0 <= j < |names| ==> row[names[j]] == ManualField(h, TypeAt(types, j), Trim(values[j])))
      && (forall j :: |types| <= j < |names| ==> row[names[j]] == Str(Trim(values[j])))
  {
    var opts := ManualLineResults(h, names, types, lines);
    var i := KeptIndices(opts)[k];
    ManualKeptRow(h, names, types, lines, k);
    ManualRowContent(h, names, types, Split(lines[i], ','), i);
  }

  /** Unless a name is `id`, kept row k has the id `row-<i>` of the line i it came from. */
  lemma ManualRowId(h: Host, names: seq<string>, types: seq<ColumnType>, lines: seq<string>, k: nat)
    requires "id" !in names
    requires k < |Collect(ManualLineResults(h, names, types, lines))|
    ensures var opts := ManualLineResults(h, names, types, lines);
      "id" in Collect(opts)[k] && Collect(opts)[k]["id"] == Str(RowId(KeptIndices(opts)[k]))
  {
    var opts := ManualLineResults(h, names, types, lines);
    var i := KeptIndices(opts)[k];
    ManualKeptRow(h, names, types, lines, k);
    AssignKeeps(IdRow(i), names, ManualFields(h, types, TrimAll(Split(lines[i], ','))), "id");
  }

  /** Unless a name is `id`, the rows of one manual block carry pairwise distinct ids. */
  lemma ManualRowIdsDistinct(h: Host, names: seq<string>, types: seq<ColumnType>, lines: seq<string>)
    requires "id" !in names
    ensures var data := Collect(ManualLineResults(h, names, types, lines));
      forall k, l :: 0 <= k < l < |data| ==> Lookup(data[k], "id") != Lookup(data[l], "id")
  {
    var opts := ManualLineResults(h, names, types, lines);
    var data, ix := Collect(opts), KeptIndices(opts);
    forall k | 0 <= k < |data| ensures "id" in data[k] && data[k]["id"] == Str(RowId(ix[k])) {
      ManualRowId(h, names, types, lines, k);
    }
    RowIdsDistinct(data, ix);
  }

  /** Fields converted with extra types are the fields the first `|values|` types give. */
  lemma ManualFieldsExtraTypes(h: Host, types: seq<ColumnType>, values: seq<string>)
    requires |values| <= |types|
    ensures ManualFields(h, types, values) == ManualFields(h, types[..|values|], values)
  {
    var short := types[..|values|];
    forall j | 0 <= j < |values| ensures ManualFields(h, types, values)[j] == ManualFields(h, short, values)[j] {
      assert TypeAt(types, j) == TypeAt(short, j);
    }
  }

  /** A line converted with extra types yields what it yields with the first `|names|` types. */
  lemma ManualLineExtraTypes(h: Host, names: seq<string>, types: seq<ColumnType>, line: string, i: nat)
    requires |names| <= |types|
    ensures ManualLine(h, names, types, line, i) == ManualLine(h, names, types[..|names|], line, i)
  {
    var values := TrimAll(Split(line, ','));
    if |values| == |names| {
      ManualFieldsExtraTypes(h, types, values);
    }
  }

  /**
   * Types beyond the names change nothing: the result is the one the first
   * `|names|` types give.
   */
  lemma ManualExtraTypesIgnored(h: Host, rawData: string, names: seq<string>, types: seq<ColumnType>)
    requires |names| <= |types|
    ensures ManualSpec(h, rawData, names, types) == ManualSpec(h, rawData, names, types[..|names|])
  {
    var short := types[..|names|];
    var lines := ManualLines(rawData);
    forall i | 0 <= i < |lines|
      ensures ManualLineResults(h, names, types, lines)[i] == ManualLineResults(h, names, short, lines)[i]
    {
      ManualLineExtraTypes(h, names, types, lines[i], i);
    }
    assert ManualLineResults(h, names, types, lines) == ManualLineResults(h, names, short, lines);
    assert DeclaredColumns(names, types) == DeclaredColumns(names, short);
  }

  // ---------------------------------------------------------------------------
  // onSubmit checks
  // ---------------------------------------------------------------------------

  /** The form's values as handed to the submit handler. */
  datatype FormValues = FormValues(
    datasetName: string, columnNames: seq<string>, columnTypes: seq<ColumnType>, rawData: string)

  datatype SubmitError = SchemaInvalid | NameRequired | DuplicateColumnNames | NoValidData

  /** The form schema checked before the handler runs: non-empty name, column names and data. */
  function SchemaValid(v: FormValues): (b: bool)
    ensures b <==> v.datasetName != "" && "" !in v.columnNames && v.rawData != ""
  {
    && v.datasetName != ""
    && (forall i :: 0 <= i < |v.columnNames| ==> v.columnNames[i] != "")
    && v.rawData != ""
  }

  /**
   * The checks made before any row is built, in order: the schema, a
   * dataset name that is not blank, and no repeated column name
   * (`new Set(names).size !== names.length`).
   */
  function CheckSubmit(v: FormValues): (e: Option<SubmitError>)
    ensures e == None <==> SchemaValid(v) && Trim(v.datasetName) != "" && Distinct(v.columnNames)
    ensures e == Some(SchemaInvalid) <==> !SchemaValid(v)
    ensures e == Some(NameRequired) <==> SchemaValid(v) && Trim(v.datasetName) == ""
    ensures e == Some(DuplicateColumnNames) <==>
      SchemaValid(v) && Trim(v.datasetName) != "" && !Distinct(v.columnNames)
  {
    DistinctIffSetSize(v.columnNames);
    if !SchemaValid(v) then Some(SchemaInvalid)
    else if Trim(v.datasetName) == "" then Some(NameRequired)
    else if |ToSet(v.columnNames)| != |v.columnNames| then Some(DuplicateColumnNames)
    else None
  }

  datatype SubmitOutcome = Rejected(error: SubmitError) | Saved(dataset: DataSet)

  // ---------------------------------------------------------------------------
  // the column editor
  // ---------------------------------------------------------------------------

  /** One entry of the `columns` state. */
  datatype ColumnDraft = ColumnDraft(name: string, ctype: ColumnType)

  /** The three parallel lists: the `columns` state and the form's names and types. */
  datatype ColumnLists = ColumnLists(columns: seq<ColumnDraft>, names: seq<string>, types: seq<ColumnType>)

  /** The lists agree entry by entry and hold at least two columns. */
  predicate InSync(l: ColumnLists) {
    && |l.columns| == |l.names| == |l.types| >= 2
    && forall i :: 0 <= i < |l.columns| ==> l.columns[i] == ColumnDraft(l.names[i], l.types[i])
  }

  /** The initial lists: an unnamed text column and an unnamed number column. */
  function DefaultLists(): (l: ColumnLists)
    ensures InSync(l) && |l.columns| == 2
  {
    ColumnLists([ColumnDraft("", StringType), ColumnDraft("", NumberType)], ["", ""], [StringType, NumberType])
  }

  /** `form.reset()` as written: the form's arrays go back to their defaults, the `columns` state does not. */
  function ResetAsWritten(l: ColumnLists): (r: ColumnLists)
    ensures r.columns == l.columns && r.names == DefaultLists().names && r.types == DefaultLists().types
    ensures |l.columns| != 2 ==> !InSync(r)
  {
    ColumnLists(l.columns, DefaultLists().names, DefaultLists().types)
  }

  /**
   * After a submit that passed the schema (every name non-empty), resetting
   * as written leaves the `columns` state out of step with the form's names:
   * the editor still shows the old names while the form holds empty ones.
   */
  lemma ResetAsWrittenDesyncs(l: ColumnLists)
    requires InSync(l)
    requires forall i :: 0 <= i < |l.names| ==> l.names[i] != ""
    ensures !InSync(ResetAsWritten(l))
  {
    assert l.columns[0].name != "";
  }

  /**
   * `removeColumn(index)` on the three lists: refused while `columns` has two
   * entries or fewer; otherwise each list loses its entry `index`, if it has one.
   */
  function RemoveFromLists(l: ColumnLists, index: nat): (r: ColumnLists)
    ensures |l.columns| <= 2 ==> r == l
    ensures InSync(l) && index < |l.columns| ==> InSync(r)
    ensures InSync(l) && index < |l.columns| && |l.columns| > 2 ==> |r.columns| == |l.columns| - 1
  {
    if |l.columns| <= 2 then l
    else
      var r := ColumnLists(Splice(l.columns, index), Splice(l.names, index), Splice(l.types, index));
      assert InSync(l) && index < |l.columns| ==> InSync(r) by {
        if InSync(l) && index < |l.columns| {
          assert forall i :: 0 <= i < |r.columns| ==> r.columns[i] == ColumnDraft(r.names[i], r.types[i]) by {
            forall i | 0 <= i < |r.columns| ensures r.columns[i] == ColumnDraft(r.names[i], r.types[i]) {
              if i >= index {
                assert r.columns[i] == l.columns[i + 1];
              }
            }
          }
        }
      }
      r
  }

  /**
   * Removing one of the first two columns after the reset as written, with
   * three or more columns shown, leaves the form a single column name while
   * the editor still shows two columns or more.
   */
  lemma RemoveAfterResetDropsName(l: ColumnLists, index: nat)
    requires InSync(l) && |l.columns| > 2 && index < 2
    ensures var r := RemoveFromLists(ResetAsWritten(l), index);
      |r.names| == |r.types| == 1 && |r.columns| == |l.columns| - 1 >= 2
  {
  }

  /** The reset the editor needs: all three lists back to their defaults together. */
  function ResetCorrected(l: ColumnLists): (r: ColumnLists)
    ensures InSync(r) && r.names == ResetAsWritten(l).names && r.types == ResetAsWritten(l).types
  {
    DefaultLists()
  }

  /** The manual-entry form: its column list, its parallel arrays, the dataset name and the data block. */
  class ManualForm {
    var columns: seq<ColumnDraft>
    var columnNames: seq<string>
    var columnTypes: seq<ColumnType>
    var datasetName: string
    var rawData: string

    function Lists(): ColumnLists
      reads this
    {
      ColumnLists(columns, columnNames, columnTypes)
    }

    function Values(): FormValues
      reads this
    {
      FormValues(datasetName, columnNames, columnTypes, rawData)
    }

    ghost predicate Valid()
      reads this
    {
      InSync(Lists())
    }

    constructor ()
      ensures Valid() && Lists() == DefaultLists() && datasetName == "" && rawData == ""
    {
      columns := DefaultLists().columns;
      columnNames := DefaultLists().names;
      columnTypes := DefaultLists().types;
      datasetName := "";
      rawData := "";
    }

    /** Appends an unnamed text column to all three lists. */
    method AddColumn()
      modifies this
      ensures old(Valid()) ==> Valid()
      ensures columns == old(columns) + [ColumnDraft("", StringType)]
      ensures columnNames == old(columnNames) + [""]
      ensures columnTypes == old(columnTypes) + [StringType]
      ensures datasetName == old(datasetName) && rawData == old(rawData)
    {
      columns := columns + [ColumnDraft("", StringType)];
      columnNames := columnNames + [""];
      columnTypes := columnTypes + [StringType];
    }

    /**
     * A remove button: refused while two columns or fewer are shown;
     * otherwise each of the three lists loses its entry `index`, if it has one.
     */
    method RemoveColumn(index: nat) returns (removed: bool)
      requires index < |columns|
      modifies this
      ensures removed <==> old(|columns|) > 2
      ensures Lists() == RemoveFromLists(old(Lists()), index)
      ensures old(Valid()) ==> Valid()
      ensures datasetName == old(datasetName) && rawData == old(rawData)
    {
      if |columns| <= 2 {
        return false;
      }
      columns := Splice(columns, index);
      columnNames := Splice(columnNames, index);
      columnTypes := Splice(columnTypes, index);
      removed := true;
    }

    /**
     * Renames column `index` in the column list and in the form's names; an
     * index one past the end of the names (lists out of step) appends.
     */
    method SetColumnName(index: nat, value: string)
      requires index < |columns| && index <= |columnNames|
      modifies this
      ensures old(Valid()) ==> Valid()
      ensures columns == old(columns)[index := ColumnDraft(value, old(columns)[index].ctype)]
      ensures index < old(|columnNames|) ==> columnNames == old(columnNames)[index := value]
      ensures index == old(|columnNames|) ==> columnNames == old(columnNames) + [value]
      ensures columnTypes == old(columnTypes)
      ensures datasetName == old(datasetName) && rawData == old(rawData)
    {
      columns := columns[index := ColumnDraft(value, columns[index].ctype)];
      if index < |columnNames| {
        columnNames := columnNames[index := value];
      } else {
        columnNames := columnNames + [value];
      }
    }

    /**
     * Retypes column `index` in the column list and in the form's types to one
     * of the four types the picker offers; an index one past the end of the
     * types (lists out of step) appends.
     */
    method SetColumnType(index: nat, value: ColumnType)
      requires index < |columns| && index <= |columnTypes|
      requires value != UnsetType
      modifies this
      ensures old(Valid()) ==> Valid()
      ensures columns == old(columns)[index := ColumnDraft(old(columns)[index].name, value)]
      ensures index < old(|columnTypes|) ==> columnTypes == old(columnTypes)[index := value]
      ensures index == old(|columnTypes|) ==> columnTypes == old(columnTypes) + [value]
      ensures columnNames == old(columnNames)
      ensures datasetName == old(datasetName) && rawData == old(rawData)
    {
      columns := columns[index := ColumnDraft(columns[index].name, value)];
      if index < |columnTypes| {
        columnTypes := columnTypes[index := value];
      } else {
        columnTypes := columnTypes + [value];
      }
    }

    /** Typing in the dataset-name field. */
    method SetDatasetName(value: string)
      modifies this
      ensures datasetName == value && rawData == old(rawData) && Lists() == old(Lists())
    {
      datasetName := value;
    }

    /** Typing in the data field. */
    method SetRawData(value: string)
      modifies this
      ensures rawData == value && datasetName == old(datasetName) && Lists() == old(Lists())
    {
      rawData := value;
    }

    /**
     * `addDataset` under the name as typed, then `form.reset()` with the
     * editor's list reset together with the form's arrays.
     */
    method Save(store: Db.Store, data: seq<Row>, cols: seq<Column>, now: int) returns (d: DataSet)
      requires Valid() && store.Valid()
      modifies this, store
      ensures Valid() && store.Valid()
      ensures d == DataSet(Db.DatasetId(old(store.currentId) + 1), old(datasetName), cols, data, now)
      ensures store.datasets == old(store.datasets) + [d] && store.currentId == old(store.currentId) + 1
      ensures Lists() == ResetCorrected(old(Lists())) && datasetName == "" && rawData == ""
    {
      d := store.AddDataset(datasetName, data, cols, now);
      var l := ResetCorrected(Lists());
      columns, columnNames, columnTypes := l.columns, l.names, l.types;
      datasetName, rawData := "", "";
    }

    /**
     * Builds the rows; refuses an empty result, and otherwise saves the
     * dataset under the name as typed and resets the form.
     */
    method ParseAndSave(h: Host, store: Db.Store, now: int) returns (outcome: SubmitOutcome)
      requires Valid() && store.Valid()
      modifies this, store
      ensures Valid() && store.Valid()
      ensures var v := old(Values());
        var parsed := ManualSpec(h, v.rawData, v.columnNames, v.columnTypes);
        && (parsed.data == [] ==>
              outcome == Rejected(NoValidData) && Values() == v && Lists() == old(Lists())
              && store.datasets == old(store.datasets) && store.currentId == old(store.currentId))
        && (parsed.data != [] ==>
              && outcome == Saved(DataSet(Db.DatasetId(old(store.currentId) + 1), v.datasetName,
                                          parsed.columns, parsed.data, now))
              && store.datasets == old(store.datasets) + [outcome.dataset]
              && Lists() == ResetCorrected(old(Lists())) && datasetName == "" && rawData == "")
    {
      ghost var v := Values();
      ghost var parsed := ManualSpec(h, v.rawData, v.columnNames, v.columnTypes);
      var data, cols := ParseManualData(h, rawData, columnNames, columnTypes);
      assert Ingested(data, cols) == parsed;
      if |data| == 0 {
        return Rejected(NoValidData);
      }
      var d := Save(store, data, cols, now);
      outcome := Saved(d);
    }

    /**
     * Runs the checks, builds the rows, refuses an empty result, and
     * otherwise saves the dataset under the name as typed and resets the form.
     */
    method Submit(h: Host, store: Db.Store, now: int) returns (outcome: SubmitOutcome)
      requires Valid() && store.Valid()
      modifies this, store
      ensures Valid() && store.Valid()
      ensures var v := old(Values());
        var parsed := ManualSpec(h, v.rawData, v.columnNames, v.columnTypes);
        && (CheckSubmit(v).Some? ==>
              outcome == Rejected(CheckSubmit(v).value) && Values() == v && Lists() == old(Lists())
              && store.datasets == old(store.datasets) && store.currentId == old(store.currentId))
        && (CheckSubmit(v).None? && parsed.data == [] ==>
              outcome == Rejected(NoValidData) && Values() == v && Lists() == old(Lists())
              && store.datasets == old(store.datasets) && store.currentId == old(store.currentId))
        && (CheckSubmit(v).None? && parsed.data != [] ==>
              && outcome == Saved(DataSet(Db.DatasetId(old(store.currentId) + 1), v.datasetName,
                                          parsed.columns, parsed.data, now))
              && store.datasets == old(store.datasets) + [outcome.dataset]
              && Lists() == ResetCorrected(old(Lists())) && datasetName == "" && rawData == "")
    {
      var err := CheckSubmit(Values());
      if err.Some? {
        return Rejected(err.value);
      }
      outcome := ParseAndSave(h, store, now);
    }
  }
}

=== FILE: Text.dfy ===
/**
 * String operations the ingestion pipeline relies on, written out exactly as
 * JavaScript performs them: `trim`, `split` on a one-character separator,
 * ASCII case mapping, `includes`, decimal rendering of an index, and the
 * column-label rule `replace(/_/g, ' ').replace(/\b\w/g, toUpperCase)`.
 */
module Text {

  // ---------------------------------------------------------------------------
  // trim
  // ---------------------------------------------------------------------------

  /** The characters `String.prototype.trim` removes: WhiteSpace and LineTerminator. */
  predicate IsWhitespace(c: char) {
    || c == ' ' || c == '\t' || c == '\n' || c == '\r' || c == '\U{000B}' || c == '\U{000C}'
    || c == '\U{00A0}' || c == '\U{1680}' || ('\U{2000}' <= c <= '\U{200A}')
    || c == '\U{2028}' || c == '\U{2029}' || c == '\U{202F}' || c == '\U{205F}'
    || c == '\U{3000}' || c == '\U{FEFF}'
  }

  /** Drops leading whitespace: the result is a suffix of `s` and everything cut was whitespace. */
  function TrimStart(s: string): (r: string)
    ensures |r| <= |s| && r == s[|s| - |r|..]
    ensures r == [] || !IsWhitespace(r[0])
    ensures forall i :: 0 <= i < |s| - |r| ==> IsWhitespace(s[i])
  {
    if s != [] && IsWhitespace(s[0]) then
      var r := TrimStart(s[1..]);
      assert forall i :: 1 <= i < |s| ==> s[i] == s[1..][i - 1];
      r
    else s
  }

  /** Drops trailing whitespace: the result is a prefix of `s` and everything cut was whitespace. */
  function TrimEnd(s: string): (r: string)
    ensures |r| <= |s| && r == s[..|r|]
    ensures r == [] || !IsWhitespace(r[|r| - 1])
    ensures forall i :: |r| <= i < |s| ==> IsWhitespace(s[i])
  {
    if s != [] && IsWhitespace(s[|s| - 1]) then
      var r := TrimEnd(s[..|s| - 1]);
      assert forall i :: 0 <= i < |s| - 1 ==> s[i] == s[..|s| - 1][i];
      r
    else s
  }

  /** `s.trim()` */
  function Trim(s: string): (r: string)
    ensures |r| <= |s|
    ensures r == [] || (!IsWhitespace(r[0]) && !IsWhitespace(r[|r| - 1]))
  {
    TrimEnd(TrimStart(s))
  }

  /** `r` is the block of `s` that starts at `a`, with only whitespace before and after it. */
  predicate WhitespaceAround(s: string, a: int, r: string) {
    && 0 <= a && a + |r| <= |s|
    && r == s[a..a + |r|]
    && (forall i :: 0 <= i < a ==> IsWhitespace(s[i]))
    && (forall i :: a + |r| <= i < |s| ==> IsWhitespace(s[i]))
  }

  /**
   * A prefix `r` of a suffix `t` of `s`, where what precedes `t` in `s` and
   * what follows `r` in `t` is whitespace, is a block of `s` with only
   * whitespace around it.
   */
  lemma PrefixOfSuffix(s: string, t: string, r: string)
    requires |t| <= |s| && t == s[|s| - |t|..]
    requires forall i :: 0 <= i < |s| - |t| ==> IsWhitespace(s[i])
    requires |r| <= |t| && r == t[..|r|]
    requires forall i :: |r| <= i < |t| ==> IsWhitespace(t[i])
    ensures WhitespaceAround(s, |s| - |t|, r)
  {
    var a := |s| - |t|;
    forall i | a + |r| <= i < |s| ensures IsWhitespace(s[i]) {
      assert s[i] == t[i - a];
    }
  }

  /** Trim keeps one contiguous block of `s` and removes only whitespace around it. */
  lemma TrimIsInfix(s: string)
    ensures WhitespaceAround(s, |s| - |TrimStart(s)|, Trim(s))
  {
    var t := TrimStart(s);
    var r := TrimEnd(t);
    assert Trim(s) == r;
    PrefixOfSuffix(s, t, r);
  }

  /** A string trims to "" exactly when it consists of whitespace only. */
  lemma TrimEmptyIff(s: string)
    ensures Trim(s) == [] <==> forall i :: 0 <= i < |s| ==> IsWhitespace(s[i])
  {
    TrimIsInfix(s);
  }

  /** Trimming twice is trimming once. */
  lemma TrimIdempotent(s: string)
    ensures Trim(Trim(s)) == Trim(s)
  {
    var r := Trim(s);
    if r != [] {
      assert TrimStart(r) == r;
      assert TrimEnd(r) == r;
    }
  }

  // ---------------------------------------------------------------------------
  // split
  // ---------------------------------------------------------------------------

  /** Number of occurrences of `c` in `s`. */
  function Count(s: string, c: char): nat
  {
    if s == [] then 0 else (if s[0] == c then 1 else 0) + Count(s[1..], c)
  }

  lemma {:induction false} CountZeroIff(s: string, c: char)
    ensures Count(s, c) == 0 <==> c !in s
  {
    if s != [] {
      CountZeroIff(s[1..], c);
      assert s == [s[0]] + s[1..];
    }
  }

  /**
   * `s.split(sep)` for a one-character separator: the pieces between the
   * separators, always at least one (an empty string yields [""]).
   */
  function Split(s: string, sep: char): (parts: seq<string>)
    ensures |parts| == Count(s, sep) + 1
    ensures forall p :: p in parts ==> sep !in p
  {
    if s == [] then [[]]
    else
      var rest := Split(s[1..], sep);
      if s[0] == sep then [[]] + rest
      else [[s[0]] + rest[0]] + rest[1..]
  }

  /** `parts.join(sep)`; the inverse of Split. */
  function Join(parts: seq<string>, sep: char): string
    requires |parts| >= 1
  {
    if |parts| == 1 then parts[0] else parts[0] + [sep] + Join(parts[1..], sep)
  }

  /** Text with no separator splits into itself alone. */
  lemma {:induction false} SplitNoSeparator(s: string, sep: char)
    requires sep !in s
    ensures Split(s, sep) == [s]
  {
    CountZeroIff(s, sep);
    if s != [] {
      assert sep !in s[1..];
      SplitNoSeparator(s[1..], sep);
      assert [s[0]] + s[1..] == s;
    }
  }

  /** Splitting `x + sep + y` where `x` has no separator peels off `x`. */
  lemma {:induction false} SplitAfterPiece(x: string, sep: char, y: string)
    requires sep !in x
    ensures Split(x + [sep] + y, sep) == [x] + Split(y, sep)
  {
    if x == [] {
      assert x + [sep] + y == [sep] + y;
      assert ([sep] + y)[1..] == y;
    } else {
      assert sep !in x[1..];
      SplitAfterPiece(x[1..], sep, y);
      assert (x + [sep] + y)[1..] == x[1..] + [sep] + y;
      assert [x[0]] + x[1..] == x;
    }
  }

  /** An empty first piece contributes just the separator that follows it. */
  lemma JoinEmptyFirst(rest: seq<string>, sep: char)
    requires |rest| >= 1
    ensures Join([[]] + rest, sep) == [sep] + Join(rest, sep)
  {
    assert ([[]] + rest)[1..] == rest;
  }

  /** A character prepended to the first piece is prepended to the whole join. */
  lemma JoinConsFirst(c: char, rest: seq<string>, sep: char)
    requires |rest| >= 1
    ensures Join([[c] + rest[0]] + rest[1..], sep) == [c] + Join(rest, sep)
  {
    var parts := [[c] + rest[0]] + rest[1..];
    assert parts[1..] == rest[1..];
  }

  /** Joining the pieces of a split gives back the text. */
  lemma {:induction false} JoinSplit(s: string, sep: char)
    ensures Join(Split(s, sep), sep) == s
  {
    if s != [] {
      var rest := Split(s[1..], sep);
      JoinSplit(s[1..], sep);
      if s[0] == sep {
        JoinEmptyFirst(rest, sep);
      } else {
        JoinConsFirst(s[0], rest, sep);
      }
      assert s == [s[0]] + s[1..];
    }
  }

  /** Splitting a join of separator-free pieces gives back the pieces. */
  lemma {:induction false} SplitJoin(parts: seq<string>, sep: char)
    requires |parts| >= 1
    requires forall i :: 0 <= i < |parts| ==> sep !in parts[i]
    ensures Split(Join(parts, sep), sep) == parts
  {
    if |parts| == 1 {
      SplitNoSeparator(parts[0], sep);
    } else {
      SplitJoin(parts[1..], sep);
      SplitAfterPiece(parts[0], sep, Join(parts[1..], sep));
      assert [parts[0]] + parts[1..] == parts;
    }
  }

  /** `s.split(sep)` has fewer than two pieces exactly when `sep` does not occur. */
  lemma SplitSingleIff(s: string, sep: char)
    ensures |Split(s, sep)| < 2 <==> sep !in s
  {
    CountZeroIff(s, sep);
  }

  /** Trimming every piece a second time changes nothing. */
  lemma TrimAllIdempotent(parts: seq<string>)
    ensures TrimAll(TrimAll(parts)) == TrimAll(parts)
  {
    forall j | 0 <= j < |parts| ensures Trim(Trim(parts[j])) == Trim(parts[j]) {
      TrimIdempotent(parts[j]);
    }
  }

  /** `parts.map(p => p.trim())` */
  function TrimAll(parts: seq<string>): (r: seq<string>)
    ensures |r| == |parts|
    ensures forall i :: 0 <= i < |parts| ==> r[i] == Trim(parts[i])
  {
    seq(|parts|, i requires 0 <= i < |parts| => Trim(parts[i]))
  }

  // ---------------------------------------------------------------------------
  // case mapping and search
  // ---------------------------------------------------------------------------

  function LowerChar(c: char): char {
    if 'A' <= c <= 'Z' then (c as int + 32) as char else c
  }

  function UpperChar(c: char): char {
    if 'a' <= c <= 'z' then (c as int - 32) as char else c
  }

  /** `s.toLowerCase()` on the ASCII letters. */
  function ToLower(s: string): (r: string)
    ensures |r| == |s|
    ensures forall i :: 0 <= i < |r| ==> !('A' <= r[i] <= 'Z')
    ensures forall i :: 0 <= i < |s| && !('A' <= s[i] <= 'Z') ==> r[i] == s[i]
    ensures forall i :: 0 <= i < |s| && 'A' <= s[i] <= 'Z' ==> r[i] as int == s[i] as int + 32
  {
    seq(|s|, i requires 0 <= i < |s| => LowerChar(s[i]))
  }

  /** Lower-casing twice is lower-casing once. */
  lemma ToLowerIdempotent(s: string)
    ensures ToLower(ToLower(s)) == ToLower(s)
  {
  }

  predicate StartsWith(s: string, prefix: string) {
    |prefix| <= |s| && s[..|prefix|] == prefix
  }

  /** `s.includes(needle)` */
  function Contains(s: string, needle: string): (b: bool)
    ensures needle == [] ==> b
    ensures b ==> |needle| <= |s|
  {
    StartsWith(s, needle) || (s != [] && Contains(s[1..], needle))
  }

  /** An occurrence of `needle` at any position makes `Contains` true. */
  lemma {:induction false} ContainsAt(s: string, needle: string, i: nat)
    requires i + |needle| <= |s| && s[i..i + |needle|] == needle
    ensures Contains(s, needle)
  {
    if i > 0 {
      assert s[1..][i - 1..i - 1 + |needle|] == s[i..i + |needle|];
      ContainsAt(s[1..], needle, i - 1);
    }
  }

  /** Whenever `Contains` holds, `needle` occurs at some position of `s`. */
  lemma {:induction false} ContainsHasPosition(s: string, needle: string) returns (i: nat)
    requires Contains(s, needle)
    ensures i + |needle| <= |s| && s[i..i + |needle|] == needle
  {
    if StartsWith(s, needle) {
      i := 0;
    } else {
      var j := ContainsHasPosition(s[1..], needle);
      assert s[1..][j..j + |needle|] == s[j + 1..j + 1 + |needle|];
      i := j + 1;
    }
  }

  // ---------------------------------------------------------------------------
  // decimal rendering of a counter: `${n}`
  // ---------------------------------------------------------------------------

  predicate IsDigit(c: char) { '0' <= c <= '9' }

  function DigitChar(d: nat): (c: char)
    requires d < 10
    ensures IsDigit(c) && c as int - '0' as int == d
  {
    (d + '0' as int) as char
  }

  /** The decimal text of `n`, as a template literal renders a non-negative integer. */
  function NatToString(n: nat): (r: string)
    ensures |r| >= 1
    ensures forall i :: 0 <= i < |r| ==> IsDigit(r[i])
  {
    if n < 10 then [DigitChar(n)] else NatToString(n / 10) + [DigitChar(n % 10)]
  }

  function DigitValue(c: char): nat
    requires IsDigit(c)
  {
    c as int - '0' as int
  }

  /** Reads a string of decimal digits. */
  function ParseNat(s: string): nat
    requires forall i :: 0 <= i < |s| ==> IsDigit(s[i])
  {
    if s == [] then 0 else 10 * ParseNat(s[..|s| - 1]) + DigitValue(s[|s| - 1])
  }

  /** Reading back the decimal text of `n` gives `n`. */
  lemma {:induction false} ParseNatToString(n: nat)
    ensures ParseNat(NatToString(n)) == n
  {
    if n >= 10 {
      ParseNatToString(n / 10);
      var r := NatToString(n);
      assert r[..|r| - 1] == NatToString(n / 10);
    }
  }

  /** Distinct counters render as distinct texts. */
  lemma NatToStringInjective(a: nat, b: nat)
    ensures NatToString(a) == NatToString(b) ==> a == b
  {
    ParseNatToString(a);
    ParseNatToString(b);
  }

  /** A fixed prefix followed by a counter identifies the counter. */
  lemma PrefixedCounterInjective(prefix: string, a: nat, b: nat)
    ensures prefix + NatToString(a) == prefix + NatToString(b) ==> a == b
  {
    if prefix + NatToString(a) == prefix + NatToString(b) {
      assert (prefix + NatToString(a))[|prefix|..] == NatToString(a);
      assert (prefix + NatToString(b))[|prefix|..] == NatToString(b);
      NatToStringInjective(a, b);
    }
  }

  // ---------------------------------------------------------------------------
  // column labels
  // ---------------------------------------------------------------------------

  /** `\w` in a JavaScript regular expression without the `u` flag. */
  predicate IsWordChar(c: char) {
    ('a' <= c <= 'z') || ('A' <= c <= 'Z') || ('0' <= c <= '9') || c == '_'
  }

  predicate IsAlnum(c: char) {
    ('a' <= c <= 'z') || ('A' <= c <= 'Z') || ('0' <= c <= '9')
  }

  /** `s.replace(/_/g, ' ')` */
  function UnderscoresToSpaces(s: string): (r: string)
    ensures |r| == |s|
  {
    seq(|s|, i requires 0 <= i < |s| => if s[i] == '_' then ' ' else s[i])
  }

  /**
   * `s.replace(/\b\w/g, l => l.toUpperCase())` on the part of a string that
   * follows a character which was (`afterWord`) or was not a word character.
   */
  function CapitalizeWords(s: string, afterWord: bool): (r: string)
    ensures |r| == |s|
  {
    if s == [] then []
    else
      var c := if IsWordChar(s[0]) && !afterWord then UpperChar(s[0]) else s[0];
      [c] + CapitalizeWords(s[1..], IsWordChar(s[0]))
  }

  /** The display label derived from a column name. */
  function ToLabel(name: string): (l: string)
    ensures |l| == |name|
  {
    CapitalizeWords(UnderscoresToSpaces(name), false)
  }

  /** Position `i` of CapitalizeWords: upper-cased exactly at a word boundary. */
  lemma {:induction false} CapitalizeWordsAt(s: string, afterWord: bool, i: nat)
    requires i < |s|
    ensures CapitalizeWords(s, afterWord)[i]
         == if IsWordChar(s[i]) && (if i == 0 then !afterWord else !IsWordChar(s[i - 1]))
            then UpperChar(s[i]) else s[i]
  {
    if i > 0 {
      CapitalizeWordsAt(s[1..], IsWordChar(s[0]), i - 1);
    }
  }

  /**
   * Each underscore of the name becomes a space; each letter or digit that
   * starts the name or follows a character other than a letter or digit is
   * upper-cased; everything else is kept.
   */
  lemma LabelAt(name: string, i: nat)
    requires i < |name|
    ensures ToLabel(name)[i]
         == if name[i] == '_' then ' '
            else if IsAlnum(name[i]) && (i == 0 || !IsAlnum(name[i - 1])) then UpperChar(name[i])
            else name[i]
  {
    CapitalizeWordsAt(UnderscoresToSpaces(name), false, i);
  }

  /** A label has no underscore left. */
  lemma LabelHasNoUnderscore(name: string)
    ensures '_' !in ToLabel(name)
  {
    forall i | 0 <= i < |name| ensures ToLabel(name)[i] != '_' {
      LabelAt(name, i);
    }
  }

  /** Deriving a label from a label changes nothing. */
  lemma LabelIdempotent(name: string)
    ensures ToLabel(ToLabel(name)) == ToLabel(name)
  {
    var l := ToLabel(name);
    forall i | 0 <= i < |l| ensures ToLabel(l)[i] == l[i] {
      LabelAt(name, i);
      LabelAt(l, i);
      if i > 0 { LabelAt(name, i - 1); }
    }
  }
}

=== FILE: Types.dfy ===
/**
 * The shapes of src/types/index.ts: a row (`TravelData`) is a string-keyed
 * record whose `id` key is filled first, a column carries a name, a label and
 * one of four types, and a dataset bundles both with an id, a name and a
 * creation time. JavaScript's own number and date parsing is not modelled:
 * a `Host` supplies it, and everything proved holds for every host.
 */
module Types {
  import opened Text
  import opened Collections

  /** A cell as JavaScript holds it at run time; `Missing` is `undefined`. */
  datatype Value = Str(s: string) | Num(n: real) | Bool(b: bool) | Missing

  /** `TravelData`: the keys present in the object and their values. */
  type Row = map<string, Value>

  /**
   * A column's `type`. `UnsetType` is `undefined`: what a manual column gets
   * when the form holds fewer types than names.
   */
  datatype ColumnType = StringType | NumberType | DateType | BooleanType | UnsetType

  /** `types[j]`, or `undefined` past the end of the list. */
  function TypeAt(types: seq<ColumnType>, j: nat): (t: ColumnType)
    ensures j < |types| ==> t == types[j]
    ensures j >= |types| ==> t == UnsetType
  {
    if j < |types| then types[j] else UnsetType
  }

  /** `Column`; `labelText` is the source's `label` field (a reserved word here). */
  datatype Column = Column(name: string, labelText: string, ctype: ColumnType)

  /** `DataSet`; `createdAt` is the clock reading taken when the store added it. */
  datatype DataSet = DataSet(id: string, name: string, columns: seq<Column>, data: seq<Row>, createdAt: int)

  /** What an ingester hands back: `{ data, columns }`. */
  datatype Ingested = Ingested(data: seq<Row>, columns: seq<Column>)

  /** One `{x, y}` pair handed to the charts. */
  datatype Point = Point(x: Value, y: Value)

  /**
   * The host runtime's conversions: `!isNaN(Number(s))`, `Number(s)`,
   * `!isNaN(new Date(s).getTime())` and `String(n)` for a number.
   */
  datatype Host = Host(
    isNumeric: string -> bool,
    toNumber: string -> real,
    validDate: string -> bool,
    numberToString: real -> string)

  /** `row[key]`: `undefined` when the key is absent. */
  function Lookup(row: Row, key: string): (v: Value)
    ensures key in row ==> v == row[key]
    ensures key !in row ==> v == Missing
  {
    if key in row then row[key] else Missing
  }

  /** The id given to the row built from line `i`: `row-${i}`. */
  function RowId(i: nat): (s: string)
    ensures |s| > 4 && s[..4] == "row-" && s[4..] == NatToString(i)
    ensures ParseNat(s[4..]) == i
  {
    ParseNatToString(i);
    var s := "row-" + NatToString(i);
    assert s[4..] == NatToString(i);
    s
  }

  /** Rows built from different lines get different ids. */
  lemma RowIdInjective(i: nat, j: nat)
    ensures RowId(i) == RowId(j) ==> i == j
  {
    PrefixedCounterInjective("row-", i, j);
  }

  /** Rows whose ids are `row-<i>` for strictly increasing line numbers i carry pairwise distinct ids. */
  lemma RowIdsDistinct(data: seq<Row>, lineOf: seq<nat>)
    requires |data| == |lineOf|
    requires forall k :: 0 <= k < |data| ==> "id" in data[k] && data[k]["id"] == Str(RowId(lineOf[k]))
    requires forall k, l :: 0 <= k < l < |lineOf| ==> lineOf[k] < lineOf[l]
    ensures forall k, l :: 0 <= k < l < |data| ==> data[k]["id"] != data[l]["id"]
  {
    forall k, l | 0 <= k < l < |data| ensures data[k]["id"] != data[l]["id"] {
      RowIdInjective(lineOf[k], lineOf[l]);
    }
  }

  /** `{ id: 'row-${i}' }`, the object a row starts from. */
  function IdRow(i: nat): Row {
    map["id" := Str(RowId(i))]
  }

  /** The starting row holds the key `id` and nothing else, with the row id as its value. */
  lemma IdRowContent(i: nat)
    ensures IdRow(i).Keys == {"id"} && Lookup(IdRow(i), "id") == Str(RowId(i))
  {
  }

  /** `keys.forEach((k, j) => row[k] = vals[j])`: later assignments win. */
  function Assign(base: Row, keys: seq<string>, vals: seq<Value>): (r: Row)
    requires |keys| == |vals|
    ensures base.Keys <= r.Keys
    ensures forall j :: 0 <= j < |keys| ==> keys[j] in r
  {
    if keys == [] then base
    else
      var n := |keys| - 1;
      Assign(base, keys[..n], vals[..n])[keys[n] := vals[n]]
  }

  /** The keys after the assignments: those of `base` and the assigned ones. */
  lemma {:induction false} AssignKeys(base: Row, keys: seq<string>, vals: seq<Value>)
    requires |keys| == |vals|
    ensures Assign(base, keys, vals).Keys == base.Keys + ToSet(keys)
  {
    if keys != [] {
      var n := |keys| - 1;
      AssignKeys(base, keys[..n], vals[..n]);
      assert keys == keys[..n] + [keys[n]];
      assert ToSet(keys) == ToSet(keys[..n]) + {keys[n]};
    }
  }

  /** Assigning one more key extends the previous assignment by that key: one step of the loop. */
  lemma AssignSnoc(base: Row, keys: seq<string>, vals: seq<Value>, j: nat, row: Row, v: Value)
    requires |keys| == |vals| && j < |keys| && v == vals[j]
    requires row == Assign(base, keys[..j], vals[..j])
    ensures row[keys[j] := v] == Assign(base, keys[..j + 1], vals[..j + 1])
  {
    assert keys[..j + 1][..j] == keys[..j];
    assert vals[..j + 1][..j] == vals[..j];
  }

  /** Position j holds the last occurrence of its key: no later key repeats it. */
  predicate LastOccurrence(keys: seq<string>, j: int) {
    0 <= j < |keys| && forall l :: j < l < |keys| ==> keys[l] != keys[j]
  }

  /**
   * After the assignments, a key that is assigned at position `j` and at no
   * later position holds `vals[j]`; a key that is never assigned keeps its
   * value from `base`.
   */
  lemma {:induction false} AssignAt(base: Row, keys: seq<string>, vals: seq<Value>, j: nat)
    requires |keys| == |vals| && LastOccurrence(keys, j)
    ensures Assign(base, keys, vals)[keys[j]] == vals[j]
  {
    var n := |keys| - 1;
    var prev := Assign(base, keys[..n], vals[..n]);
    assert Assign(base, keys, vals) == prev[keys[n] := vals[n]];
    if j < n {
      assert keys[..n][j] == keys[j] && vals[..n][j] == vals[j];
      AssignAt(base, keys[..n], vals[..n], j);
      assert keys[n] != keys[j];
    }
  }

  /** A key that is never assigned keeps its value from `base`. */
  lemma {:induction false} AssignKeeps(base: Row, keys: seq<string>, vals: seq<Value>, k: string)
    requires |keys| == |vals| && k in base && k !in keys
    ensures Assign(base, keys, vals)[k] == base[k]
  {
    if keys != [] {
      var n := |keys| - 1;
      assert k !in keys[..n];
      AssignKeeps(base, keys[..n], vals[..n], k);
    }
  }
}
